=== FILE: README.md ===
# Battleship referee and tournament setup, modelled in Dafny

This project models two pieces of a Battleship tournament engine written in C++.

- **Attack resolution.** One player's side of a game holds the board size, a matrix from cells to the ship on them, the ships, and a counter of ships still afloat. `realAttack` referees one attack against that side. `getAlgoNextAttack` asks an algorithm for moves until one gets past its retry loop.
- **Tournament setup.** The manager's constructor checks the command line (`-threads <n>` and an input directory). It keeps the `.sboard` boards that pass validation and loads the player DLLs. The manager is usable only when all three stages succeed.

The model is functional. Game and tournament state are immutable records, and each operation returns its result together with the new state. Collaborators whose code is not part of this model become function parameters or record fields:

- `Ship::isValidShipDetails`, `BattleshipBoard::isPlayerShip` and `BattleshipBoard::countShipsTypes` (`ShipRules`);
- a board's `isSuccessfullyCreated`, `ExtractShipsDetails` and `CheckIfHasAdjacentShips` answers (`Board`);
- `getFullPath`, `isValidDir`, the sorted directory listing, `LoadLibraryA` and the `GetAlgorithm` lookup (`Environment`).

`Ship` itself is not part of this model. It is given the minimal semantics the referee relies on. A ship is alive while some cell is un-hit. `updateAttack` answers 0 for a fresh hit, 1 for a repeated hit and -1 for a cell outside the ship. The points are a fixed value per ship.

Modules:

- `Wrappers`: `Option` and `Result`.
- `Ships`: the ship entity, and alive counts and points over a fleet.
- `GamePlayerData`: `realAttack`, sequences of attacks, and `getAlgoNextAttack`.
- `TournamentArguments`: `checkTournamentArguments` and the `strtol` it relies on.
- `BoardValidation`: the ship-set filtering, the player split, `checkBoardValidity` and `comparePlayersShips`.
- `Sequences`: keeping, in order, what a step accepts from a listing, shared by the board filter and the algorithm loader.
- `TournamentManager`: `checkTournamentBoards`, `loadPlayerDll`, `loadTournamentAlgos` and the constructor.

Four behaviours of the code are worth stating up front, because a reader might expect otherwise:

- an attack on a cell of an already sunk ship is a `Miss` with 0 points (ex2/ex2/GamePlayerData.cpp:62-63);
- a repeated hit on a live ship answers `(Hit, -1)` (ex2/ex2/GamePlayerData.cpp:53-55);
- the retry loop in `getAlgoNextAttack` checks only the column, because its guard is a comma expression (ex2/ex2/GamePlayerData.cpp:16; see Findings);
- `comparePlayersShips` compares player A's per-type counts with themselves, so a per-type imbalance between the players is never detected (ex3/ex3/BattleshipTournamentManager.cpp:225; see Findings).

## Model

| member | source | states |
|---|---|---|
| Ships.UpdateAttack | ex2/ex2/GamePlayerData.cpp:43-60 | 0 exactly for an un-hit cell of the ship, 1 for an already-hit cell, -1 for a cell outside it. Only a fresh hit adds that one cell to the hits; a repeated hit or a cell outside the ship leaves the ship exactly as it was. Cells and points never change, and a sunk ship stays sunk. |
| GamePlayerData.RealAttack | ex2/ex2/GamePlayerData.cpp:28-72 | Out of range, empty cell, sunk ship, or a cell outside the ship: `(Miss, 0)` and nothing changes. A fresh hit marks exactly that cell: `(Hit, 0)` while the ship lives, `(Sink, points)` once it has no un-hit cell. A repeat hit: `(Hit, -1)`, nothing changes. `currShipsCount` drops by one exactly on `Sink`. Sink iff a live ship became dead. Sunk ships, cells, points and the matrix are untouched, and every hit stays one of its ship's cells. |
| GamePlayerData.RealAttackAccounting | ex2/ex2/GamePlayerData.cpp:42-69 | `currShipsCount` minus the number of live ships is invariant. A sink removes exactly one live ship and exactly its points from the live total. |
| GamePlayerData.RunAttacksAccounting | ex2/ex2/GamePlayerData.cpp:42-69 | Over any attack sequence: sinks plus remaining live ships equal the initial live ships, in number and in points. The counter falls by the number of sinks. |
| GamePlayerData.SunkStaysSunk | ex2/ex2/GamePlayerData.cpp:62-63 | A sunk ship stays sunk under any later attacks and is never reported sunk again. |
| GamePlayerData.SunkShipsWereAlive | ex2/ex2/GamePlayerData.cpp:42-50 | Every ship sunk by a sequence of attacks was alive when the sequence started. |
| GamePlayerData.SunkShipsMatchSinks | ex2/ex2/GamePlayerData.cpp:47-50 | The ships sunk by a sequence of attacks correspond one to one to its `Sink` replies. |
| GamePlayerData.EachShipSinksAtMostOnce | ex2/ex2/GamePlayerData.cpp:42-50 | The ships sunk by a sequence of attacks are pairwise distinct, so each ship sinks at most once. |
| GamePlayerData.SinkBounds | ex2/ex2/GamePlayerData.cpp:42-69 | Sinks never exceed the number of ships. The counter never drops below its start minus the number of ships. With non-negative point values, sink points never exceed the fleet's total. |
| GamePlayerData.RunAttacksKeepsPoints | ex2/ex2/GamePlayerData.cpp:47-50 | Attacks never change any ship's cells or point value. |
| GamePlayerData.SinkThenRepeatOnOneCellShip | ex2/ex2/GamePlayerData.cpp:42-69 | A one-cell ship at (4,4) on a 4x4 board: the first attack gives `(Sink, points)` and a counter of 0. The same attack again gives `(Miss, 0)` and changes nothing. |
| GamePlayerData.RetryUntilAccepted | ex2/ex2/GamePlayerData.cpp:7-24 | Returns the first move that is the `(-1,-1)` sentinel or fails the retry guard, with the number of moves consumed. Every earlier move is a non-sentinel that passes the guard. `None` only when every move is one. |
| GamePlayerData.GetAlgoNextAttack | ex2/ex2/GamePlayerData.cpp:4-25 | The sentinel is returned as soon as it appears. Otherwise the first move with column at most `cols` is returned. The row is never consulted. |
| GamePlayerData.RowBoundNotChecked | ex2/ex2/GamePlayerData.cpp:16 | A move one row below the board, in column 1, stops the retry loop as written although it is off the board. |
| GamePlayerData.GetAlgoNextAttackInBoard | ex2/ex2/GamePlayerData.cpp:15-23 | With the guard the comment describes, the move returned is the sentinel or lies on the board. Every move skipped is off the board, and when none is returned every move was a non-sentinel off the board. |
| TournamentArguments.StrToL | ex3/ex3/BattleshipTournamentManager.cpp:57-58 | The end index lies within the string. Without digits the end is 0 and the value 0. Otherwise the end follows the last digit of the run, and the value lies in the 32-bit `long` range. |
| TournamentArguments.StrToLOfNumeral | ex3/ex3/BattleshipTournamentManager.cpp:57-58 | For white space, an optional `+` or `-`, a digit run and anything not starting with a digit: the value is the signed value of the digits, saturated to the 32-bit `long` range, and the end is right after the digits. |
| TournamentArguments.StrToLWithoutDigits | ex3/ex3/BattleshipTournamentManager.cpp:57-58 | When no digit follows the white space and the optional sign, the value is 0 and the end is the start of the string. |
| TournamentArguments.StrToLNegative | ex3/ex3/BattleshipTournamentManager.cpp:57-63 | `"-5"` reads as -5 and is refused as a thread count. |
| TournamentArguments.StrToLPlusSign | ex3/ex3/BattleshipTournamentManager.cpp:57-63 | `"+4"` reads as 4 and is accepted. |
| TournamentArguments.StrToLLeadingSpace | ex3/ex3/BattleshipTournamentManager.cpp:57-63 | `" 7"` reads as 7 and is accepted. |
| TournamentArguments.StrToLLeadingZero | ex3/ex3/BattleshipTournamentManager.cpp:57-63 | `"04"` reads as 4 and is accepted. |
| TournamentArguments.StrToLZero | ex3/ex3/BattleshipTournamentManager.cpp:57-63 | `"0"` reads whole as 0 and is refused, being below 1. |
| TournamentArguments.StrToLTrailing | ex3/ex3/BattleshipTournamentManager.cpp:57-63 | `"4x"` stops after the 4 and is refused for its trailing character. |
| TournamentArguments.StrToLNoDigits | ex3/ex3/BattleshipTournamentManager.cpp:57-63 | `"x"` and the empty string read nothing and are refused. |
| TournamentArguments.StrToLOfDecimal | ex3/ex3/BattleshipTournamentManager.cpp:57-59 | Round trip: the decimal numeral of any natural number is read back whole, with its value saturated to `LONG_MAX`. |
| TournamentArguments.TrailingCharactersRejected | ex3/ex3/BattleshipTournamentManager.cpp:57-63 | A numeral followed by a non-digit stops the parse at the numeral, so the `-threads` value is rejected. |
| TournamentArguments.ScanArguments | ex3/ex3/BattleshipTournamentManager.cpp:47-70 | A completed scan leaves the thread count as it was or at least 1, and a changed count is the value `strtol` read after some `-threads` that passed the value test. Its path is the initial one or one of the arguments other than `-threads`. A missing value means `-threads` is last. An invalid value means some `-threads` is followed by a value that fails that test, and that value is still stored as the count. |
| TournamentArguments.CheckTournamentArguments | ex3/ex3/BattleshipTournamentManager.cpp:37-82 | More than 4 arguments is rejected with nothing changed. Otherwise the thread count is what the scan left, and a scan error is returned as is. Success holds iff the scan succeeds, the path resolves and the resolved path is a directory; then `inputDirPath` is the resolved path. An unresolved path gives `PathNotResolved` with `inputDirPath` unchanged. A resolved path that is not a directory gives `DirectoryNotFound` with the resolved path stored. |
| TournamentArguments.ThreadsFlagLastRejected | ex3/ex3/BattleshipTournamentManager.cpp:49-54 | `-threads` as the last argument is always rejected, whatever precedes it. |
| TournamentArguments.DefaultsWithoutThreadsFlag | ex3/ex3/BattleshipTournamentManager.cpp:39-69 | Without `-threads` the thread count keeps its default. The last argument is the path, and `"."` is used when there is none. |
| TournamentArguments.ThreadsFlagSetsCount | ex3/ex3/BattleshipTournamentManager.cpp:49-69 | Wherever `-threads` stands among at most three arguments, a valid value sets the count to what `strtol` reads from it. An argument before or after the pair becomes the path. |
| TournamentArguments.ThreadsFlagSetsDecimalCount | ex3/ex3/BattleshipTournamentManager.cpp:49-69 | `-threads` followed by the numeral of a positive `n` sets the count to `n`, saturated. |
| TournamentArguments.InvalidThreadsValueRejected | ex3/ex3/BattleshipTournamentManager.cpp:49-63 | Wherever `-threads` stands among at most three arguments, a value that is not a whole positive numeral is rejected with `InvalidThreadsValue`. The value `strtol` read is still left in `maxGamesThreads`. |
| BoardValidation.DeleteInvalidShipsDetailsEntryFromSet | ex3/ex3/BattleshipTournamentManager.cpp:177-192 | Exactly the valid entries remain. Each removed entry's character is recorded as invalid, and the invalid set grows by exactly those characters. On an all-valid set nothing changes, so a second run is a no-op. |
| BoardValidation.SplitByOwner | ex3/ex3/BattleshipTournamentManager.cpp:159-173 | An element goes to side A exactly when the owner test accepts it, and to side B otherwise. |
| BoardValidation.FindValidAndInvalidShipsInBoard | ex3/ex3/BattleshipTournamentManager.cpp:147-175 | A and B are disjoint, and their union is the valid extracted entries. A holds exactly the valid entries owned by player A. The invalid characters are split the same way. |
| BoardValidation.CheckBoardValidity | ex3/ex3/BattleshipTournamentManager.cpp:113-144 | True iff the board was created, no ships are adjacent, every extracted ship is valid, and each player owns a ship. The balance comparison does not influence it. |
| BoardValidation.AnyPairDiffers | ex3/ex3/BattleshipTournamentManager.cpp:223-228 | True iff some index from `i` on holds different (size, count) pairs in the two vectors. |
| BoardValidation.ComparePlayersShips | ex3/ex3/BattleshipTournamentManager.cpp:204-233 | As written: different ship numbers give `DifferentShipCount`, the early return with no output (its message at line 208 is commented out). The line-232 warning, `DifferentTypeCounts`, comes exactly when the ship numbers agree and the type-vector lengths differ. Per-type counts are never compared with B's. |
| BoardValidation.ComparePlayersShipsIntended | ex3/ex3/BattleshipTournamentManager.cpp:218-229 | Comparing A's per-type counts with B's: balanced iff both players have as many ships and identical per-type counts. |
| BoardValidation.ComparePlayersShipsMissesTypeImbalance | ex3/ex3/BattleshipTournamentManager.cpp:225 | For two one-ship fleets of different ship sizes, the comparison as written reports balance and the intended one warns. |
| TournamentManager.AcceptedBoardFiles | ex3/ex3/BattleshipTournamentManager.cpp:90-102 | Exactly the listed board files whose board passes validation are kept. |
| TournamentManager.AcceptedBoardFilesInOrder | ex3/ex3/BattleshipTournamentManager.cpp:90-102 | The kept files come from strictly increasing positions of the listing, each accepted, and every accepted position is used: each accepted entry is kept once, in listed order. |
| TournamentManager.AcceptedBoardFilesUnique | ex3/ex3/BattleshipTournamentManager.cpp:90-102 | Any in-order selection of the accepted entries of the listing equals the kept files. |
| TournamentManager.AcceptedBoardFilesSorted | ex3/ex3/BattleshipTournamentManager.cpp:87-102 | Filtering a sorted listing keeps it sorted, so the boards stay in file-name order. |
| TournamentManager.CheckTournamentBoards | ex3/ex3/BattleshipTournamentManager.cpp:84-111 | The boards kept are those of the accepted files, in listing order. It fails iff none is kept. |
| TournamentManager.Find | ex3/ex3/BattleshipTournamentManager.cpp:260 | Returns the first occurrence of the pattern at or after the start index, or `None` when there is none. |
| TournamentManager.PlayerName | ex3/ex3/BattleshipTournamentManager.cpp:260 | The player name is a prefix of the file name. Either the file name holds no ".dll" and the name is all of it, or ".dll" occurs right after the name and nowhere earlier. |
| TournamentManager.PlayerNameOfDllFile | ex3/ex3/BattleshipTournamentManager.cpp:260 | For `base + ".dll"` where `base` holds no ".dll", the player name is `base`. |
| TournamentManager.LoadPlayerDll | ex3/ex3/BattleshipTournamentManager.cpp:256-282 | An algorithm is recorded iff both the library load and the `GetAlgorithm` lookup succeed for the bare file name. It records the full path and the player name. |
| TournamentManager.LoadPlayerDllFromPath | ex3/ex3/BattleshipTournamentManager.cpp:259-263 | Loading from the recorded path: a recorded algorithm's path is one whose load and lookup succeed, and failure means one of them fails for that path. |
| TournamentManager.LoadByFileNameMissesDirectory | ex3/ex3/BattleshipTournamentManager.cpp:263 | Suppose a loader finds libraries only by their directory path. The load as written fails for `dir/a.dll`, and the load from the recorded path succeeds. |
| TournamentManager.LoadedAlgos | ex3/ex3/BattleshipTournamentManager.cpp:241-244 | Every recorded algorithm comes from a listed file that loaded. Every listed file that loads is recorded. |
| TournamentManager.LoadedAlgosInOrder | ex3/ex3/BattleshipTournamentManager.cpp:241-244 | The algorithms come from strictly increasing positions of the listing, one per file that loads, and every such file is used. |
| TournamentManager.LoadedAlgosUnique | ex3/ex3/BattleshipTournamentManager.cpp:241-244 | Any in-order selection of the loaded algorithms of the listing equals the recorded list. |
| TournamentManager.LoadTournamentAlgos | ex3/ex3/BattleshipTournamentManager.cpp:235-254 | The algorithms are those loaded from the listed DLLs, in order. It fails iff fewer than two were loaded. |
| TournamentManager.CreateManager | ex3/ex3/BattleshipTournamentManager.cpp:6-15 | Created iff the arguments, boards and algorithm stages all pass. A failing stage leaves the later stages' results empty. The thread count and input path are those the argument check left. |

## Left out

- The destructor's `FreeLibrary` calls are not modelled. Library handles are not modelled at all; only whether a load and the symbol lookup succeed.
- `Start()` is an empty stub, and no scheduler, thread pool or concurrency exists in this code.
- All console output is left out, including the one warning `comparePlayersShips` prints (line 232); the model returns how the comparison ended instead. `PrintWrongSizeOrShapeForShips` prints nothing, because its loop body at line 200 is a comment, so it is not modelled.
- The internals of `Ship`, `BattleshipBoard` and the file-system helpers are not part of this model. Their answers are parameters.
- `DEFAULT_THREADS_NUM` is declared in a header that is not part of this model, so it is the `defaultThreadsNum` field of the environment. `TOURNAMENT_MIN_PLAYERS` is 2, as the error message at ex3/ex3/BattleshipTournamentManager.cpp:248 says.
- `strtol` is modelled for a 32-bit `long`, as on the Windows target the code is written for. There, the cast to `int` changes nothing. Command-line arguments are C strings, so they contain no NUL character, and any character left after the number counts as trailing.
- GamePlayerData.GetAlgoNextAttack: works on a finite sequence of moves. When the sequence runs out while the loop still retries, the result is `None`, whereas the code would keep calling `attack()`.
- The board description parser, ship extraction, adjacency check and rendering are not part of this model.

## Findings

| source | as written | input that shows it | evidently intended | confidence | as-written member | corrected member |
|---|---|---|---|---|---|---|
| ex2/ex2/GamePlayerData.cpp:16 | `while (row < rows, col > cols)`: the comma operator drops the row test, so only `col > cols` keeps the loop asking | rows 4, cols 4, move (5, 1): accepted although off the board | retry while the move is off the board | medium, not executed | GamePlayerData.RowBoundNotChecked | GamePlayerData.GetAlgoNextAttackInBoard |
| ex3/ex3/BattleshipTournamentManager.cpp:225 | compares `shipsCountVec_A[i]` with itself, so a per-type difference is never found | A has one ship of size 1, B one ship of size 2: no warning | compare A's counts with B's | high, not executed | BoardValidation.ComparePlayersShips | BoardValidation.ComparePlayersShipsIntended |
| ex3/ex3/BattleshipTournamentManager.cpp:263 | `LoadLibraryA` gets the bare file name, not the `dllPath` built at line 259 | directory `dir` holding `a.dll`, with a loader that resolves only `dir/a.dll`: nothing loads | load `dllPath` | medium, not executed | TournamentManager.LoadByFileNameMissesDirectory | TournamentManager.LoadPlayerDllFromPath |

The rest of the model follows the code as written. It uses `GetAlgoNextAttack`, `ComparePlayersShips` and `LoadPlayerDll`; the corrected definitions stand beside them. Replacing the comparison would not change any acceptance decision, because `CheckBoardValidity` ignores its result.

=== FILE: board_validation.dfy ===
/**
 * Deciding whether a board may be used in the tournament. The board's own parsing, ship
 * extraction and adjacency check, and the ship-shape and ownership rules, are collaborators
 * whose answers the decision takes as given.
 */
module BoardValidation {

  /** A board position, row, column and depth. */
  datatype Position = Position(row: int, col: int, depth: int)

  /** A ship character with the connected cells it occupies, as extracted from a board. */
  datatype ShipDetails = ShipDetails(ch: char, cells: set<Position>)

  /**
   * The static helpers the validation consults: `Ship::isValidShipDetails`,
   * `BattleshipBoard::isPlayerShip` for player A, and `BattleshipBoard::countShipsTypes`
   * (the (size, count) pairs of a ship set, ordered by ship size).
   */
  datatype ShipRules = ShipRules(
    isValidShipDetails: ShipDetails -> bool,
    isPlayerAShip: char -> bool,
    countShipsTypes: set<ShipDetails> -> seq<(int, int)>)

  /**
   * A board read from a `.sboard` file, given by the answers of its own members:
   * `isSuccessfullyCreated`, `ExtractShipsDetails` and `CheckIfHasAdjacentShips`.
   */
  datatype Board = Board(created: bool, shipsDetails: set<ShipDetails>, hasAdjacentShips: bool)

  /** The entries of `details` with a valid shape and size. */
  function ValidEntries(details: set<ShipDetails>, isValid: ShipDetails -> bool): set<ShipDetails> {
    set e | e in details && isValid(e)
  }

  /** The characters of the entries of `details` with an invalid shape or size. */
  function InvalidChars(details: set<ShipDetails>, isValid: ShipDetails -> bool): set<char> {
    set e | e in details && !isValid(e) :: e.ch
  }

  /**
   * Erases every invalid entry from `details` and records its character in `invalidShips`.
   * The entries left are exactly the valid ones; running it on its own output changes nothing.
   */
  method DeleteInvalidShipsDetailsEntryFromSet(
    details: set<ShipDetails>, invalidShips: set<char>, isValid: ShipDetails -> bool)
    returns (kept: set<ShipDetails>, invalid: set<char>)
    ensures forall e :: e in kept ==> isValid(e)
    ensures forall e :: e in details && isValid(e) ==> e in kept
    ensures kept <= details
    ensures forall e :: e in details && e !in kept ==> e.ch in invalid
    ensures invalid == invalidShips + InvalidChars(details, isValid)
    ensures (forall e :: e in details ==> isValid(e)) ==> kept == details && invalid == invalidShips
  {
    kept := details;
    invalid := invalidShips;
    var todo := details;
    while todo != {}
      invariant todo <= kept <= details
      invariant forall e :: e in kept && e !in todo ==> isValid(e)
      invariant forall e :: e in details && isValid(e) ==> e in kept
      invariant invalid == invalidShips + InvalidChars(details - todo, isValid)
      decreases todo
    {
      var e :| e in todo;
      ghost var done := details - todo;
      todo := todo - {e};
      if !isValid(e) {
        invalid := invalid + {e.ch};
        kept := kept - {e};
      }
      assert details - todo == done + {e};
      assert InvalidChars(details - todo, isValid)
          == InvalidChars(done, isValid) + (if isValid(e) then {} else {e.ch});
    }
  }

  /** The valid ships and the invalid ship characters of a board, split by owner. */
  datatype ShipsPartition = ShipsPartition(
    validA: set<ShipDetails>, invalidA: set<char>,
    validB: set<ShipDetails>, invalidB: set<char>)

  /** Puts each element of `xs` on side A when `toA` holds of it and on side B otherwise. */
  method SplitByOwner<T>(xs: set<T>, toA: T -> bool) returns (a: set<T>, b: set<T>)
    ensures forall x :: x in a <==> x in xs && toA(x)
    ensures forall x :: x in b <==> x in xs && !toA(x)
  {
    a, b := {}, {};
    var todo := xs;
    while todo != {}
      invariant todo <= xs
      invariant forall x :: x in a <==> x in xs && x !in todo && toA(x)
      invariant forall x :: x in b <==> x in xs && x !in todo && !toA(x)
      decreases todo
    {
      var x :| x in todo;
      todo := todo - {x};
      if toA(x) {
        a := a + {x};
      } else {
        b := b + {x};
      }
    }
  }

  /**
   * Extracts the board's ships, drops the invalid ones and splits ships and invalid
   * characters between the players: player A takes what `isPlayerShip(A, ·)` accepts,
   * player B everything else.
   */
  method FindValidAndInvalidShipsInBoard(board: Board, rules: ShipRules) returns (p: ShipsPartition)
    ensures p.validA * p.validB == {} && p.invalidA * p.invalidB == {}
    ensures p.validA + p.validB == ValidEntries(board.shipsDetails, rules.isValidShipDetails)
    ensures p.invalidA + p.invalidB == InvalidChars(board.shipsDetails, rules.isValidShipDetails)
    ensures forall e :: e in p.validA <==>
              e in board.shipsDetails && rules.isValidShipDetails(e) && rules.isPlayerAShip(e.ch)
    ensures forall c :: c in p.invalidA <==>
              c in InvalidChars(board.shipsDetails, rules.isValidShipDetails) && rules.isPlayerAShip(c)
  {
    var valid, invalid := DeleteInvalidShipsDetailsEntryFromSet(board.shipsDetails, {}, rules.isValidShipDetails);
    var validA, validB := SplitByOwner(valid, (e: ShipDetails) => rules.isPlayerAShip(e.ch));
    var invalidA, invalidB := SplitByOwner(invalid, rules.isPlayerAShip);
    p := ShipsPartition(validA, invalidA, validB, invalidB);
  }

  /**
   * The board-acceptance policy, stated on the board's own answers: it was created, no
   * ships touch, every extracted ship has a valid shape and size, and each player owns
   * at least one ship.
   */
  predicate BoardAccepted(board: Board, rules: ShipRules) {
    && board.created
    && !board.hasAdjacentShips
    && (forall e :: e in board.shipsDetails ==> rules.isValidShipDetails(e))
    && (exists e :: e in board.shipsDetails && rules.isPlayerAShip(e.ch))
    && (exists e :: e in board.shipsDetails && !rules.isPlayerAShip(e.ch))
  }

  /**
   * `checkBoardValidity`: false for a board that was not created or where a player has no
   * valid ship; otherwise true exactly when no ships are adjacent and neither player has an
   * invalid ship. The ship-balance comparison is computed and ignored.
   */
  method CheckBoardValidity(board: Board, rules: ShipRules) returns (ok: bool)
    ensures ok == BoardAccepted(board, rules)
    ensures !board.created ==> !ok
    ensures ok ==> board.shipsDetails != {} && !board.hasAdjacentShips
  {
    if !board.created {
      return false;
    }
    var p := FindValidAndInvalidShipsInBoard(board, rules);
    if p.validA == {} {
      assert forall e :: e in board.shipsDetails && rules.isPlayerAShip(e.ch) ==> !rules.isValidShipDetails(e);
      return false;
    } else if p.validB == {} {
      assert forall e :: e in board.shipsDetails && !rules.isPlayerAShip(e.ch) ==> !rules.isValidShipDetails(e);
      return false;
    }
    var _ := ComparePlayersShips(p.validA, p.validB, rules.countShipsTypes);
    ok := !board.hasAdjacentShips && p.invalidA == {} && p.invalidB == {};
    assert forall e :: e in board.shipsDetails && !rules.isValidShipDetails(e) ==>
             e.ch in InvalidChars(board.shipsDetails, rules.isValidShipDetails);
  }

  /**
   * How `comparePlayersShips` ends: balanced, the silent early return for different ship
   * numbers (its message is commented out), or the printed per-type warning.
   */
  datatype Balance = Balanced | DifferentShipCount | DifferentTypeCounts

  /** Whether some index `i` or later holds different (size, count) pairs in `xs` and `ys`. */
  function AnyPairDiffers(xs: seq<(int, int)>, ys: seq<(int, int)>, i: nat): (r: bool)
    requires |xs| == |ys|
    ensures r <==> exists k :: i <= k < |xs| && xs[k] != ys[k]
    decreases |xs| - i
  {
    if i >= |xs| then false
    else xs[i].0 != ys[i].0 || xs[i].1 != ys[i].1 || AnyPairDiffers(xs, ys, i + 1)
  }

  /**
   * `comparePlayersShips` as written: different ship numbers return early without output;
   * otherwise the per-type loop compares player A's counts with themselves, so the only
   * warning printed is for type vectors of different lengths.
   */
  function ComparePlayersShips(
    validA: set<ShipDetails>, validB: set<ShipDetails>,
    countShipsTypes: set<ShipDetails> -> seq<(int, int)>): (r: Balance)
    ensures r != Balanced <==>
              |validA| != |validB| || |countShipsTypes(validA)| != |countShipsTypes(validB)|
    ensures r == DifferentShipCount <==> |validA| != |validB|
    ensures r == DifferentTypeCounts <==>
              |validA| == |validB| && |countShipsTypes(validA)| != |countShipsTypes(validB)|
  {
    if |validA| != |validB| then DifferentShipCount
    else
      var countsA := countShipsTypes(validA);
      var countsB := countShipsTypes(validB);
      if |countsA| != |countsB| then DifferentTypeCounts
      else if AnyPairDiffers(countsA, countsA, 0) then DifferentTypeCounts
      else Balanced
  }

  /** The comparison as intended: player A's per-type counts against player B's. */
  function ComparePlayersShipsIntended(
    validA: set<ShipDetails>, validB: set<ShipDetails>,
    countShipsTypes: set<ShipDetails> -> seq<(int, int)>): (r: Balance)
    ensures r == Balanced <==> |validA| == |validB| && countShipsTypes(validA) == countShipsTypes(validB)
  {
    if |validA| != |validB| then DifferentShipCount
    else
      var countsA := countShipsTypes(validA);
      var countsB := countShipsTypes(validB);
      if |countsA| != |countsB| then DifferentTypeCounts
      else if AnyPairDiffers(countsA, countsB, 0) then DifferentTypeCounts
      else
        assert countsA == countsB;
        Balanced
  }

  /**
   * Two one-ship fleets of different sizes: the comparison as written calls them balanced,
   * the intended one warns.
   */
  lemma ComparePlayersShipsMissesTypeImbalance()
    ensures var a := {ShipDetails('B', {Position(1, 1, 1)})};
            var b := {ShipDetails('p', {Position(3, 1, 1), Position(3, 2, 1)})};
            var counts := (s: set<ShipDetails>) => if ShipDetails('B', {Position(1, 1, 1)}) in s then [(1, 1)] else [(2, 1)];
            && ComparePlayersShips(a, b, counts) == Balanced
            && ComparePlayersShipsIntended(a, b, counts) == DifferentTypeCounts
  {
  }
}

=== FILE: game_player_data.dfy ===
/**
 * One player's side of a single game: the board dimensions, the matrix that maps each
 * cell to the ship occupying it, the ships themselves and the number of ships still
 * afloat. `RealAttack` referees an attack against this side; `GetAlgoNextAttack` filters the
 * moves an attacking algorithm proposes.
 */
module GamePlayerData {
  import opened Wrappers
  import opened Ships

  datatype AttackResult = Miss | Hit | Sink

  /** A one-based (row, column) attack coordinate as the algorithms produce it. */
  datatype Coordinate = Coordinate(row: int, col: int)

  /** The referee's answer to one attack: an outcome and the points it earns. */
  datatype Reply = Reply(result: AttackResult, points: int)

  /**
   * `shipsMatrix` maps a zero-based cell to the index in `ships` of the ship on it;
   * a cell absent from the map holds no ship.
   */
  datatype PlayerState = PlayerState(
    rows: int,
    cols: int,
    shipsMatrix: map<Cell, nat>,
    ships: seq<Ship>,
    currShipsCount: int)

  /** Every ship reference in the matrix names an existing ship. */
  predicate WellFormed(st: PlayerState) {
    forall c :: c in st.shipsMatrix ==> st.shipsMatrix[c] < |st.ships|
  }

  /** Every hit recorded on every ship is one of that ship's cells. */
  predicate HitsConsistent(st: PlayerState) {
    forall i :: 0 <= i < |st.ships| ==> HitsOwnCells(st.ships[i])
  }

  predicate InBounds(a: Coordinate, rows: int, cols: int) {
    1 <= a.row <= rows && 1 <= a.col <= cols
  }

  predicate InBoard(st: PlayerState, a: Coordinate) {
    InBounds(a, st.rows, st.cols)
  }

  /** The zero-based matrix cell addressed by a one-based coordinate. */
  function CellOf(a: Coordinate): Cell {
    Cell(a.row - 1, a.col - 1)
  }

  /** The index of the ship an in-board coordinate lands on, if any. */
  function ShipAt(st: PlayerState, a: Coordinate): (r: Option<nat>)
    requires WellFormed(st)
    ensures r.Some? ==> r.value < |st.ships|
  {
    if InBoard(st, a) && CellOf(a) in st.shipsMatrix then Some(st.shipsMatrix[CellOf(a)]) else None
  }

  /** The state after ship `id` absorbed a fresh hit on `c`. */
  function MarkHit(st: PlayerState, id: nat, c: Cell): PlayerState
    requires id < |st.ships|
  {
    st.(ships := st.ships[id := st.ships[id].(hits := st.ships[id].hits + {c})])
  }

  /**
   * Resolves an attack on this player. Out-of-board coordinates, empty cells and sunk
   * ships are misses that change nothing; a fresh hit marks the cell and sinks the ship
   * when no un-hit cell remains; a repeated hit on a live ship earns -1 and changes nothing.
   */
  function RealAttack(st: PlayerState, a: Coordinate): (r: (Reply, PlayerState))
    requires WellFormed(st)
    ensures WellFormed(r.1)
    ensures HitsConsistent(st) ==> HitsConsistent(r.1)
    // what never changes
    ensures r.1.rows == st.rows && r.1.cols == st.cols && r.1.shipsMatrix == st.shipsMatrix
    ensures |r.1.ships| == |st.ships|
    ensures forall i :: 0 <= i < |st.ships| ==>
              r.1.ships[i].cells == st.ships[i].cells && r.1.ships[i].points == st.ships[i].points
    // a ship that already sank is left exactly as it was
    ensures forall i :: 0 <= i < |st.ships| && !IsAlive(st.ships[i]) ==> r.1.ships[i] == st.ships[i]
    // out of the board
    ensures !InBoard(st, a) ==> r == (Reply(Miss, 0), st)
    // in the board, empty cell
    ensures InBoard(st, a) && ShipAt(st, a).None? ==> r == (Reply(Miss, 0), st)
    // the ship on the cell already sank
    ensures ShipAt(st, a).Some? && !IsAlive(st.ships[ShipAt(st, a).value]) ==> r == (Reply(Miss, 0), st)
    // a live ship is attacked
    ensures ShipAt(st, a).Some? && IsAlive(st.ships[ShipAt(st, a).value]) ==>
              var id := ShipAt(st, a).value;
              var ship := st.ships[id];
              var c := CellOf(a);
              && (c in ship.cells && c !in ship.hits ==>
                    && r.1 == MarkHit(st, id, c).(currShipsCount := r.1.currShipsCount)
                    && (IsAlive(r.1.ships[id]) ==> r.0 == Reply(Hit, 0))
                    && (!IsAlive(r.1.ships[id]) ==> r.0 == Reply(Sink, ship.points)))
              && (c in ship.hits && c in ship.cells ==> r == (Reply(Hit, -1), st))
              && (c !in ship.cells ==> r == (Reply(Miss, 0), st))
    // the live-ship counter moves only on a sink
    ensures r.1.currShipsCount == st.currShipsCount - (if r.0.result == Sink then 1 else 0)
    ensures r.0.result == Sink <==>
              ShipAt(st, a).Some? && IsAlive(st.ships[ShipAt(st, a).value])
              && !IsAlive(r.1.ships[ShipAt(st, a).value])
    ensures r.0.result == Miss ==> r.0.points == 0 && r.1 == st
  {
    if a.row > st.rows || a.row < 1 || a.col < 1 || a.col > st.cols then
      (Reply(Miss, 0), st)
    else
      var c := CellOf(a);
      if c !in st.shipsMatrix then
        (Reply(Miss, 0), st)
      else
        var id := st.shipsMatrix[c];
        var ship := st.ships[id];
        if IsAlive(ship) then
          var (code, ship') := UpdateAttack(ship, c);
          var st' := st.(ships := st.ships[id := ship']);
          if code == FreshHit then
            if IsAlive(ship') then (Reply(Hit, 0), st')
            else (Reply(Sink, ship'.points), st'.(currShipsCount := st.currShipsCount - 1))
          else if code == AlreadyHit then
            (Reply(Hit, -1), st)
          else
            (Reply(Miss, 0), st)
        else
          (Reply(Miss, 0), st)
  }

  /**
   * The live-ship counter and the number of ships still alive fall together: their
   * difference is invariant, and the alive ships lose exactly the sunk ship's value.
   */
  lemma RealAttackAccounting(st: PlayerState, a: Coordinate)
    requires WellFormed(st)
    ensures var (reply, st') := RealAttack(st, a);
            && st'.currShipsCount - AliveCount(st'.ships) == st.currShipsCount - AliveCount(st.ships)
            && AliveCount(st'.ships) == AliveCount(st.ships) - (if reply.result == Sink then 1 else 0)
            && AlivePoints(st'.ships) == AlivePoints(st.ships) - (if reply.result == Sink then reply.points else 0)
  {
    var (reply, st') := RealAttack(st, a);
    if ShipAt(st, a).Some? && IsAlive(st.ships[ShipAt(st, a).value]) {
      var id := ShipAt(st, a).value;
      if st'.ships != st.ships {
        assert st'.ships == st.ships[id := st'.ships[id]];
        AliveCountUpdate(st.ships, id, st'.ships[id]);
        AlivePointsUpdate(st.ships, id, st'.ships[id]);
      }
    }
  }

  /** Applies a sequence of attacks in order, collecting the referee's replies. */
  function RunAttacks(st: PlayerState, attacks: seq<Coordinate>): (r: (seq<Reply>, PlayerState))
    requires WellFormed(st)
    ensures |r.0| == |attacks| && WellFormed(r.1)
    decreases |attacks|
  {
    if |attacks| == 0 then ([], st)
    else
      var (reply, st') := RealAttack(st, attacks[0]);
      var (rest, final) := RunAttacks(st', attacks[1..]);
      ([reply] + rest, final)
  }

  function SinkCount(replies: seq<Reply>): nat {
    if |replies| == 0 then 0
    else (if replies[0].result == Sink then 1 else 0) + SinkCount(replies[1..])
  }

  function SinkPoints(replies: seq<Reply>): int {
    if |replies| == 0 then 0
    else (if replies[0].result == Sink then replies[0].points else 0) + SinkPoints(replies[1..])
  }

  /** The indices of the ships sunk by a sequence of attacks, in the order they sank. */
  function SunkShips(st: PlayerState, attacks: seq<Coordinate>): seq<nat>
    requires WellFormed(st)
    decreases |attacks|
  {
    if |attacks| == 0 then []
    else
      var (reply, st') := RealAttack(st, attacks[0]);
      (if reply.result == Sink then [ShipAt(st, attacks[0]).value] else []) + SunkShips(st', attacks[1..])
  }

  /**
   * Over any sequence of attacks, each sink takes exactly one live ship away: the sinks
   * plus the ships left alive make up the ships alive at the start, in number and in points,
   * and the live-ship counter falls by the number of sinks.
   */
  lemma {:induction false} RunAttacksAccounting(st: PlayerState, attacks: seq<Coordinate>)
    requires WellFormed(st)
    ensures var (replies, final) := RunAttacks(st, attacks);
            && SinkCount(replies) + AliveCount(final.ships) == AliveCount(st.ships)
            && SinkPoints(replies) + AlivePoints(final.ships) == AlivePoints(st.ships)
            && final.currShipsCount == st.currShipsCount - SinkCount(replies)
            && |final.ships| == |st.ships|
    decreases |attacks|
  {
    if |attacks| > 0 {
      RealAttackAccounting(st, attacks[0]);
      var st' := RealAttack(st, attacks[0]).1;
      RunAttacksAccounting(st', attacks[1..]);
    }
  }

  /** A ship that has sunk stays sunk whatever attacks follow. */
  lemma {:induction false} SunkStaysSunk(st: PlayerState, attacks: seq<Coordinate>, id: nat)
    requires WellFormed(st) && id < |st.ships| && !IsAlive(st.ships[id])
    ensures id < |RunAttacks(st, attacks).1.ships| && !IsAlive(RunAttacks(st, attacks).1.ships[id])
    ensures id !in SunkShips(st, attacks)
    decreases |attacks|
  {
    if |attacks| > 0 {
      var st' := RealAttack(st, attacks[0]).1;
      assert st'.ships[id] == st.ships[id];
      SunkStaysSunk(st', attacks[1..], id);
    }
  }

  /** One ship index is recorded per `Sink` reply. */
  lemma {:induction false} SunkShipsMatchSinks(st: PlayerState, attacks: seq<Coordinate>)
    requires WellFormed(st)
    ensures |SunkShips(st, attacks)| == SinkCount(RunAttacks(st, attacks).0)
    decreases |attacks|
  {
    if |attacks| > 0 {
      var st' := RealAttack(st, attacks[0]).1;
      SunkShipsMatchSinks(st', attacks[1..]);
    }
  }

  /** Only ships alive at the start can be sunk by later attacks. */
  lemma {:induction false} SunkShipsWereAlive(st: PlayerState, attacks: seq<Coordinate>)
    requires WellFormed(st)
    ensures forall id :: id in SunkShips(st, attacks) ==> id < |st.ships| && IsAlive(st.ships[id])
    decreases |attacks|
  {
    if |attacks| > 0 {
      var st' := RealAttack(st, attacks[0]).1;
      SunkShipsWereAlive(st', attacks[1..]);
    }
  }

  predicate Distinct(xs: seq<nat>) {
    forall i, j :: 0 <= i < j < |xs| ==> xs[i] != xs[j]
  }

  /**
   * Each ship produces a sink at most once: the ships sunk by a sequence of attacks are
   * pairwise distinct.
   */
  lemma {:induction false} EachShipSinksAtMostOnce(st: PlayerState, attacks: seq<Coordinate>)
    requires WellFormed(st)
    ensures Distinct(SunkShips(st, attacks))
    decreases |attacks|
  {
    if |attacks| > 0 {
      var (reply, st') := RealAttack(st, attacks[0]);
      var rest := SunkShips(st', attacks[1..]);
      EachShipSinksAtMostOnce(st', attacks[1..]);
      if reply.result == Sink {
        var id := ShipAt(st, attacks[0]).value;
        SunkStaysSunk(st', attacks[1..], id);
        assert SunkShips(st, attacks) == [id] + rest;
      } else {
        assert SunkShips(st, attacks) == rest;
      }
    }
  }

  /**
   * Consequences for a whole game: the live-ship counter never drops below its start value
   * minus the number of ships, and with non-negative point values the points earned by
   * sinks never exceed the value of the whole fleet.
   */
  lemma SinkBounds(st: PlayerState, attacks: seq<Coordinate>)
    requires WellFormed(st)
    ensures var (replies, final) := RunAttacks(st, attacks);
            && SinkCount(replies) <= |st.ships|
            && final.currShipsCount >= st.currShipsCount - |st.ships|
            && (NonNegativePoints(st.ships) ==> SinkPoints(replies) <= TotalPoints(st.ships))
  {
    RunAttacksAccounting(st, attacks);
    var final := RunAttacks(st, attacks).1;
    if NonNegativePoints(st.ships) {
      AlivePointsBounded(st.ships);
      assert NonNegativePoints(final.ships) by {
        RunAttacksKeepsPoints(st, attacks);
      }
      AlivePointsBounded(final.ships);
    }
  }

  /** Attacks never change a ship's cells or point value. */
  lemma {:induction false} RunAttacksKeepsPoints(st: PlayerState, attacks: seq<Coordinate>)
    requires WellFormed(st)
    ensures var final := RunAttacks(st, attacks).1;
            |final.ships| == |st.ships| &&
            forall i :: 0 <= i < |st.ships| ==>
              final.ships[i].points == st.ships[i].points && final.ships[i].cells == st.ships[i].cells
    decreases |attacks|
  {
    if |attacks| > 0 {
      RunAttacksKeepsPoints(RealAttack(st, attacks[0]).1, attacks[1..]);
    }
  }

  /**
   * A one-cell ship at (4,4) on a 4x4 board: the first attack sinks it and takes the
   * counter to 0; attacking the same cell again finds a sunk ship, a miss that changes nothing.
   */
  lemma SinkThenRepeatOnOneCellShip(points: int)
    ensures var st := PlayerState(4, 4, map[Cell(3, 3) := 0], [Ship({Cell(3, 3)}, {}, points)], 1);
            var (first, st1) := RealAttack(st, Coordinate(4, 4));
            var (second, st2) := RealAttack(st1, Coordinate(4, 4));
            && first == Reply(Sink, points) && st1.currShipsCount == 0
            && second == Reply(Miss, 0) && st2 == st1
  {
  }

  /** The coordinate an algorithm returns when it has no more moves. */
  predicate IsNoMoreMoves(a: Coordinate) {
    a.row == -1 && a.col == -1
  }

  /**
   * The guard of the retry loop in `getAlgoNextAttack`, `row < rows, col > cols`, as C++
   * evaluates it: the comma operator discards the row comparison, so only the column decides.
   */
  predicate RetryGuard(a: Coordinate, rows: int, cols: int) {
    a.col > cols
  }

  /**
   * Asks the algorithm for moves (the sequence `moves`, in the order `attack()` would return
   * them) until one makes `keepAsking` false or is the no-more-moves sentinel. `used` is the
   * number of moves consumed; `None` means the sequence ran out while the loop still asked.
   */
  method RetryUntilAccepted(moves: seq<Coordinate>, keepAsking: Coordinate -> bool)
    returns (r: Option<Coordinate>, used: nat)
    ensures used <= |moves|
    ensures forall j :: 0 <= j < used - 1 ==> !IsNoMoreMoves(moves[j]) && keepAsking(moves[j])
    ensures r.Some? ==> 0 < used && r.value == moves[used - 1]
                        && (IsNoMoreMoves(r.value) || !keepAsking(r.value))
    ensures r.None? ==> used == |moves|
                        && forall j :: 0 <= j < |moves| ==> !IsNoMoreMoves(moves[j]) && keepAsking(moves[j])
  {
    if |moves| == 0 {
      return None, 0;
    }
    var attack := moves[0];
    used := 1;
    if IsNoMoreMoves(attack) {
      return Some(attack), used;
    }
    while keepAsking(attack)
      invariant 1 <= used <= |moves|
      invariant attack == moves[used - 1] && !IsNoMoreMoves(attack)
      invariant forall j :: 0 <= j < used - 1 ==> !IsNoMoreMoves(moves[j]) && keepAsking(moves[j])
      decreases |moves| - used
    {
      if used == |moves| {
        return None, used;
      }
      attack := moves[used];
      used := used + 1;
      if IsNoMoreMoves(attack) {
        return Some(attack), used;
      }
    }
    return Some(attack), used;
  }

  /**
   * `getAlgoNextAttack` as written: the sentinel is returned as soon as it appears, and
   * otherwise the first move whose column is at most `cols`; the row is never checked.
   */
  method GetAlgoNextAttack(moves: seq<Coordinate>, rows: int, cols: int)
    returns (r: Option<Coordinate>, used: nat)
    ensures used <= |moves|
    ensures forall j :: 0 <= j < used - 1 ==> !IsNoMoreMoves(moves[j]) && moves[j].col > cols
    ensures r.Some? ==> 0 < used && r.value == moves[used - 1]
                        && (IsNoMoreMoves(r.value) || r.value.col <= cols)
    ensures r.None? ==> used == |moves|
                        && forall j :: 0 <= j < |moves| ==> !IsNoMoreMoves(moves[j]) && moves[j].col > cols
  {
    r, used := RetryUntilAccepted(moves, a => RetryGuard(a, rows, cols));
  }

  /** A move far below the board passes the retry loop as written when its column fits. */
  lemma RowBoundNotChecked(rows: int, cols: int)
    requires 1 <= cols
    ensures var a := Coordinate(rows + 1, 1);
            !IsNoMoreMoves(a) && !RetryGuard(a, rows, cols) && !InBounds(a, rows, cols)
  {
  }

  /**
   * The retry loop as its comment describes it: keep asking while the move is off the board.
   * The move it returns is the sentinel or lies on the board.
   */
  method GetAlgoNextAttackInBoard(moves: seq<Coordinate>, rows: int, cols: int)
    returns (r: Option<Coordinate>, used: nat)
    ensures used <= |moves|
    ensures forall j :: 0 <= j < used - 1 ==> !IsNoMoreMoves(moves[j]) && !InBounds(moves[j], rows, cols)
    ensures r.Some? ==> 0 < used && r.value == moves[used - 1]
                        && (IsNoMoreMoves(r.value) || InBounds(r.value, rows, cols))
    ensures r.None? ==> used == |moves|
                        && forall j :: 0 <= j < |moves| ==> !IsNoMoreMoves(moves[j]) && !InBounds(moves[j], rows, cols)
  {
    r, used := RetryUntilAccepted(moves, a => !InBounds(a, rows, cols));
  }
}

=== FILE: sequences.dfy ===
/**
 * Keeping, in order, the images of the elements of a listing that a step accepts: the
 * shape shared by the board filter and the algorithm loader of the tournament manager.
 */
module Sequences {
  import opened Wrappers

  /**
   * `r` is what `f` keeps of `xs`, in order, and `idx` says where each kept element came
   * from: strictly increasing positions, each accepted by `f`, covering every accepted one.
   */
  predicate SelectsInOrder<T, U(==)>(xs: seq<T>, f: T -> Option<U>, r: seq<U>, idx: seq<nat>) {
    && |idx| == |r|
    && (forall k :: 0 <= k < |idx| ==> idx[k] < |xs| && f(xs[idx[k]]) == Some(r[k]))
    && (forall k, l :: 0 <= k < l < |idx| ==> idx[k] < idx[l])
    && (forall j :: 0 <= j < |xs| && f(xs[j]).Some? ==> j in idx)
  }

  /** The images under `f` of the elements it accepts, in the order of `xs`. */
  function FilterMap<T, U(==)>(xs: seq<T>, f: T -> Option<U>): (r: seq<U>)
    ensures |r| <= |xs|
    ensures forall k :: 0 <= k < |r| ==> exists j :: 0 <= j < |xs| && f(xs[j]) == Some(r[k])
    ensures forall j :: 0 <= j < |xs| && f(xs[j]).Some? ==> f(xs[j]).value in r
  {
    if |xs| == 0 then []
    else
      var init := xs[..|xs| - 1];
      assert forall j :: 0 <= j < |init| ==> init[j] == xs[j];
      FilterMap(init, f) + match f(xs[|xs| - 1])
        case Some(y) => [y]
        case None => []
  }

  /** `FilterMap` keeps each accepted element exactly once and in the order of `xs`. */
  lemma {:induction false} FilterMapInOrder<T, U>(xs: seq<T>, f: T -> Option<U>) returns (idx: seq<nat>)
    ensures SelectsInOrder(xs, f, FilterMap(xs, f), idx)
  {
    if |xs| == 0 {
      idx := [];
    } else {
      var front := FilterMapInOrder(xs[..|xs| - 1], f);
      idx := ExtendSelection(xs, f, FilterMap(xs[..|xs| - 1], f), front);
    }
  }

  /** A selection from all but the last element extends by the last one when `f` accepts it. */
  lemma ExtendSelection<T, U>(xs: seq<T>, f: T -> Option<U>, r: seq<U>, idx: seq<nat>) returns (idx': seq<nat>)
    requires |xs| > 0 && SelectsInOrder(xs[..|xs| - 1], f, r, idx)
    ensures var y := f(xs[|xs| - 1]);
            SelectsInOrder(xs, f, if y.Some? then r + [y.value] else r, idx')
  {
    var last := |xs| - 1;
    var init := xs[..last];
    assert forall j :: 0 <= j < |init| ==> init[j] == xs[j];
    assert forall k :: 0 <= k < |idx| ==> idx[k] < last && f(xs[idx[k]]) == Some(r[k]);
    match f(xs[last]) {
      case Some(y) =>
        idx' := idx + [last];
        var r' := r + [y];
        assert forall k :: 0 <= k < |idx| ==> idx'[k] == idx[k] && r'[k] == r[k];
        assert forall j :: 0 <= j < |xs| && f(xs[j]).Some? ==> j == last || j in idx;
      case None =>
        idx' := idx;
        assert forall j :: 0 <= j < |xs| && f(xs[j]).Some? ==> j < last;
    }
  }

  /** A selection in order is determined by the listing and the step: there is only one. */
  lemma {:induction false} SelectsInOrderUnique<T, U>(xs: seq<T>, f: T -> Option<U>,
    r1: seq<U>, idx1: seq<nat>, r2: seq<U>, idx2: seq<nat>)
    requires SelectsInOrder(xs, f, r1, idx1) && SelectsInOrder(xs, f, r2, idx2)
    ensures idx1 == idx2 && r1 == r2
    decreases |xs|
  {
    if |xs| == 0 {
      IncreasingBounded(idx1, 0);
      IncreasingBounded(idx2, 0);
    } else {
      var last := |xs| - 1;
      var init := xs[..last];
      assert forall j :: 0 <= j < |init| ==> init[j] == xs[j];
      var i1, s1 := DropLast(xs, f, r1, idx1);
      var i2, s2 := DropLast(xs, f, r2, idx2);
      SelectsInOrderUnique(init, f, s1, i1, s2, i2);
    }
  }

  /**
   * Removing the last element of the listing removes the last selected element exactly
   * when that element was accepted.
   */
  lemma DropLast<T, U>(xs: seq<T>, f: T -> Option<U>, r: seq<U>, idx: seq<nat>)
    returns (idx': seq<nat>, r': seq<U>)
    requires |xs| > 0 && SelectsInOrder(xs, f, r, idx)
    ensures SelectsInOrder(xs[..|xs| - 1], f, r', idx')
    ensures f(xs[|xs| - 1]).Some? ==> idx == idx' + [|xs| - 1] && r == r' + [f(xs[|xs| - 1]).value]
    ensures f(xs[|xs| - 1]).None? ==> idx == idx' && r == r'
  {
    var last := |xs| - 1;
    var init := xs[..last];
    assert forall j :: 0 <= j < |init| ==> init[j] == xs[j];
    if f(xs[last]).Some? {
      assert last in idx;
      var p :| 0 <= p < |idx| && idx[p] == last;
      idx', r' := idx[..p], r[..p];
      assert idx == idx' + [last] && r == r' + [r[p]];
      forall j | 0 <= j < |init| && f(init[j]).Some? ensures j in idx' {
        assert j in idx;
        var q :| 0 <= q < |idx| && idx[q] == j;
        assert q != p;
        assert idx'[q] == j;
      }
    } else {
      idx', r' := idx, r;
      forall k | 0 <= k < |idx| ensures idx[k] < last {
        assert idx[k] != last;
      }
    }
  }

  /** Strictly increasing positions below `n` number at most `n`. */
  lemma {:induction false} IncreasingBounded(idx: seq<nat>, n: nat)
    requires forall k :: 0 <= k < |idx| ==> idx[k] < n
    requires forall k, l :: 0 <= k < l < |idx| ==> idx[k] < idx[l]
    ensures |idx| <= n
  {
    if |idx| > 0 {
      var top := idx[|idx| - 1];
      IncreasingBounded(idx[..|idx| - 1], top);
    }
  }
}

=== FILE: ships.dfy ===
/**
 * The runtime combat entity of one player: a ship owns a set of cells, remembers which of
 * them were hit, and is worth a fixed number of points when it sinks.
 *
 * Only the behaviour the referee relies on is modelled: a ship is alive while some
 * cell is un-hit, and `UpdateAttack` reports whether an attacked cell was freshly hit,
 * already hit, or not part of the ship at all.
 */
module Ships {

  /** A zero-based (row, column) index into a player's ship matrix. */
  datatype Cell = Cell(row: int, col: int)

  datatype Ship = Ship(cells: set<Cell>, hits: set<Cell>, points: int)

  /** Reply codes of `Ship::updateAttack`. */
  const FreshHit := 0
  const AlreadyHit := 1
  const NotPartOfShip := -1

  /** A ship is alive while at least one of its cells has not been hit. */
  predicate IsAlive(s: Ship) {
    exists c :: c in s.cells && c !in s.hits
  }

  /** Every hit recorded on the ship is one of its own cells. */
  predicate HitsOwnCells(s: Ship) {
    s.hits <= s.cells
  }

  /**
   * Records an attack on cell `c`: a fresh hit marks the cell, a repeated hit or a cell
   * outside the ship leaves the ship untouched. The code tells the three cases apart.
   */
  function UpdateAttack(s: Ship, c: Cell): (r: (int, Ship))
    ensures r.0 == FreshHit <==> c in s.cells && c !in s.hits
    ensures r.0 == AlreadyHit <==> c in s.cells && c in s.hits
    ensures r.0 == NotPartOfShip <==> c !in s.cells
    ensures r.1.cells == s.cells && r.1.points == s.points
    ensures s.hits <= r.1.hits <= s.hits + {c}
    ensures c in s.cells ==> c in r.1.hits
    ensures HitsOwnCells(s) ==> HitsOwnCells(r.1)
    ensures !IsAlive(s) ==> !IsAlive(r.1)
    ensures r.0 != FreshHit ==> r.1 == s
  {
    if c !in s.cells then (NotPartOfShip, s)
    else if c in s.hits then (AlreadyHit, s)
    else (FreshHit, s.(hits := s.hits + {c}))
  }

  /** Number of ships in `ships` that are still alive. */
  function AliveCount(ships: seq<Ship>): (n: nat)
    ensures n <= |ships|
  {
    if |ships| == 0 then 0
    else (if IsAlive(ships[0]) then 1 else 0) + AliveCount(ships[1..])
  }

  /** Sum of the point values of the ships in `ships` that are still alive. */
  function AlivePoints(ships: seq<Ship>): int {
    if |ships| == 0 then 0
    else (if IsAlive(ships[0]) then ships[0].points else 0) + AlivePoints(ships[1..])
  }

  /** Sum of the point values of all ships, alive or sunk. */
  function TotalPoints(ships: seq<Ship>): int {
    if |ships| == 0 then 0 else ships[0].points + TotalPoints(ships[1..])
  }

  predicate NonNegativePoints(ships: seq<Ship>) {
    forall i :: 0 <= i < |ships| ==> ships[i].points >= 0
  }

  /** Replacing one ship changes the alive count only by the change of that ship's status. */
  lemma {:induction false} AliveCountUpdate(ships: seq<Ship>, i: nat, s: Ship)
    requires i < |ships|
    ensures AliveCount(ships[i := s]) ==
            AliveCount(ships) - (if IsAlive(ships[i]) then 1 else 0) + (if IsAlive(s) then 1 else 0)
  {
    if i == 0 {
      assert ships[i := s][1..] == ships[1..];
    } else {
      assert ships[i := s][1..] == ships[1..][i - 1 := s];
      AliveCountUpdate(ships[1..], i - 1, s);
    }
  }

  /** Replacing one ship changes the alive points only by the change of that ship's status and value. */
  lemma {:induction false} AlivePointsUpdate(ships: seq<Ship>, i: nat, s: Ship)
    requires i < |ships|
    ensures AlivePoints(ships[i := s]) ==
            AlivePoints(ships) - (if IsAlive(ships[i]) then ships[i].points else 0)
                               + (if IsAlive(s) then s.points else 0)
  {
    if i == 0 {
      assert ships[i := s][1..] == ships[1..];
    } else {
      assert ships[i := s][1..] == ships[1..][i - 1 := s];
      AlivePointsUpdate(ships[1..], i - 1, s);
    }
  }

  /** With non-negative point values, the ships still alive are worth at most the whole fleet. */
  lemma {:induction false} AlivePointsBounded(ships: seq<Ship>)
    requires NonNegativePoints(ships)
    ensures 0 <= AlivePoints(ships) <= TotalPoints(ships)
  {
    if |ships| > 0 {
      assert NonNegativePoints(ships[1..]) by {
        forall j | 0 <= j < |ships[1..]| ensures ships[1..][j].points >= 0 {
          assert ships[1..][j] == ships[j + 1];
        }
      }
      AlivePointsBounded(ships[1..]);
    }
  }
}

=== FILE: tournament_arguments.dfy ===
/**
 * The command line of the tournament: an optional input directory (default ".") and an
 * optional `-threads <n>` flag bounding the number of concurrent games. The thread count
 * is read with the C library's `strtol` in base 10, modelled here for a 32-bit `long`.
 */
module TournamentArguments {
  import opened Wrappers

  /** Bounds of a 32-bit `long`, where `strtol` saturates. */
  const LONG_MIN: int := -0x8000_0000
  const LONG_MAX: int := 0x7FFF_FFFF

  /** At most three arguments after the program name. */
  const MAX_ARGC: int := 4

  const ThreadsFlag: string := "-threads"
  const DefaultPath: string := "."

  datatype ArgsError =
    | TooManyArguments
    | MissingThreadsValue
    | InvalidThreadsValue
    | PathNotResolved
    | DirectoryNotFound

  /** The white-space characters `strtol` skips: space, \t, \n, \v, \f, \r. */
  predicate IsSpace(c: char) {
    c == ' ' || c == '\t' || c == '\n' || c == 11 as char || c == 12 as char || c == '\r'
  }

  predicate IsDigit(c: char) {
    '0' <= c <= '9'
  }

  predicate AllDigits(s: string) {
    forall k :: 0 <= k < |s| ==> IsDigit(s[k])
  }

  function DigitValue(c: char): (d: nat)
    requires IsDigit(c)
    ensures d <= 9
  {
    c as int - '0' as int
  }

  /** The index of the first character at or after `i` that is not white space. */
  function SkipSpaces(s: string, i: nat): (j: nat)
    requires i <= |s|
    ensures i <= j <= |s|
    ensures forall k :: i <= k < j ==> IsSpace(s[k])
    ensures j < |s| ==> !IsSpace(s[j])
    decreases |s| - i
  {
    if i < |s| && IsSpace(s[i]) then SkipSpaces(s, i + 1) else i
  }

  /** The end of the run of decimal digits that starts at `i`. */
  function DigitsEnd(s: string, i: nat): (j: nat)
    requires i <= |s|
    ensures i <= j <= |s|
    ensures AllDigits(s[i..j])
    ensures j < |s| ==> !IsDigit(s[j])
    decreases |s| - i
  {
    if i < |s| && IsDigit(s[i]) then
      var j := DigitsEnd(s, i + 1);
      assert s[i..j] == [s[i]] + s[i + 1..j];
      j
    else i
  }

  /** The value of a string of decimal digits, most significant first. */
  function DecimalValue(d: string): nat
    requires AllDigits(d)
  {
    if |d| == 0 then 0 else DecimalValue(d[..|d| - 1]) * 10 + DigitValue(d[|d| - 1])
  }

  /** Saturation of an exact value to the range of a 32-bit `long`. */
  function Clamp(v: int): (r: int)
    ensures LONG_MIN <= r <= LONG_MAX
    ensures LONG_MIN <= v <= LONG_MAX ==> r == v
  {
    if v > LONG_MAX then LONG_MAX else if v < LONG_MIN then LONG_MIN else v
  }

  /** What `strtol(s, &end, 10)` returns, and the index `end` points at. */
  datatype Parsed = Parsed(value: int, end: nat)

  /**
   * `strtol` in base 10: skip white space, read an optional sign and a run of digits.
   * Without digits the value is 0 and `end` is the start of the string; an out-of-range
   * value saturates.
   */
  function StrToL(s: string): (r: Parsed)
    ensures r.end <= |s|
    ensures LONG_MIN <= r.value <= LONG_MAX
    ensures r.end == 0 ==> r.value == 0
    ensures r.end > 0 ==> IsDigit(s[r.end - 1]) && (r.end < |s| ==> !IsDigit(s[r.end]))
  {
    var i := SkipSpaces(s, 0);
    var negative := i < |s| && s[i] == '-';
    var j := if i < |s| && (s[i] == '+' || s[i] == '-') then i + 1 else i;
    var k := DigitsEnd(s, j);
    if k == j then Parsed(0, 0)
    else
      assert IsDigit(s[j..k][k - 1 - j]);
      Parsed(SignedValue(negative, s[j..k]), k)
  }

  /** The value of a digit run under a sign, saturated to the range of a `long`. */
  function SignedValue(negative: bool, digits: string): int
    requires AllDigits(digits)
  {
    var magnitude: int := DecimalValue(digits);
    Clamp(if negative then -magnitude else magnitude)
  }

  /** The check applied to the value after `-threads`: nothing may trail the number and it must be positive. */
  predicate IsValidThreadsValue(s: string) {
    var p := StrToL(s);
    p.end == |s| && p.value >= 1
  }

  /** The decimal numeral of `n`, without sign or leading zeros. */
  function Decimal(n: nat): (d: string)
    ensures |d| > 0 && AllDigits(d)
    decreases n
  {
    var last := ('0' as int + n % 10) as char;
    if n < 10 then [last] else Decimal(n / 10) + [last]
  }

  lemma {:induction false} DecimalValueOfDecimal(n: nat)
    ensures DecimalValue(Decimal(n)) == n
    decreases n
  {
    var d := Decimal(n);
    if n >= 10 {
      assert d[..|d| - 1] == Decimal(n / 10);
      DecimalValueOfDecimal(n / 10);
    }
  }

  /** A string that starts with a digit has its digit run counted from index 0. */
  lemma DigitsEndOfDigits(s: string, i: nat)
    requires i <= |s| && AllDigits(s)
    ensures DigitsEnd(s, i) == |s|
    decreases |s| - i
  {
  }

  /**
   * Round trip: `strtol` reads back the numeral of any natural number, consuming it
   * entirely, and saturates beyond the 32-bit range.
   */
  lemma StrToLOfDecimal(n: nat)
    ensures StrToL(Decimal(n)) == Parsed(Clamp(n), |Decimal(n)|)
  {
    var d := Decimal(n);
    assert SkipSpaces(d, 0) == 0;
    DigitsEndOfDigits(d, 0);
    assert d[0..|d|] == d;
    DecimalValueOfDecimal(n);
  }

  /** A numeral followed by a non-digit is read only up to the numeral: the value is rejected. */
  lemma TrailingCharactersRejected(n: nat, tail: string)
    requires |tail| > 0 && !IsDigit(tail[0])
    ensures StrToL(Decimal(n) + tail).end == |Decimal(n)|
    ensures !IsValidThreadsValue(Decimal(n) + tail)
  {
    var d := Decimal(n);
    var s := d + tail;
    assert SkipSpaces(s, 0) == 0;
    DigitsEndPrefix(d, tail, 0);
  }

  lemma {:induction false} DigitsEndPrefix(d: string, tail: string, i: nat)
    requires i <= |d| && AllDigits(d) && |tail| > 0 && !IsDigit(tail[0])
    ensures DigitsEnd(d + tail, i) == |d|
    decreases |d| - i
  {
    if i < |d| {
      DigitsEndPrefix(d, tail, i + 1);
    } else {
      assert (d + tail)[i] == tail[0];
    }
  }

  predicate AllSpaces(w: string) {
    forall k :: 0 <= k < |w| ==> IsSpace(w[k])
  }

  predicate IsSign(sign: string) {
    sign == "" || sign == "+" || sign == "-"
  }

  /** The digit run of `s` from `i` ends at the first non-digit at or after `i`. */
  lemma DigitsEndAt(s: string, i: nat, e: nat)
    requires i <= e <= |s|
    requires forall k :: i <= k < e ==> IsDigit(s[k])
    requires e < |s| ==> !IsDigit(s[e])
    ensures DigitsEnd(s, i) == e
  {
  }

  /** The white space of `s` from `i` ends at the first other character at or after `i`. */
  lemma SkipSpacesAt(s: string, i: nat, e: nat)
    requires i <= e <= |s|
    requires forall k :: i <= k < e ==> IsSpace(s[k])
    requires e < |s| ==> !IsSpace(s[e])
    ensures SkipSpaces(s, i) == e
  {
  }

  /**
   * `strtol` on a string whose white space ends at `i`, whose optional sign ends at `j`
   * (`negative` telling whether it is a minus) and whose digit run is `d`, from `j`.
   */
  lemma StrToLAt(s: string, i: nat, j: nat, d: string, negative: bool)
    requires i <= j && j + |d| <= |s| && |d| > 0 && AllDigits(d)
    requires forall k :: 0 <= k < i ==> IsSpace(s[k])
    requires j == i || (j == i + 1 && (s[i] == '+' || s[i] == '-'))
    requires negative <==> j > i && s[i] == '-'
    requires s[j..j + |d|] == d
    requires j + |d| < |s| ==> !IsDigit(s[j + |d|])
    ensures StrToL(s) == Parsed(SignedValue(negative, d), j + |d|)
  {
    var e := j + |d|;
    forall k | j <= k < e ensures IsDigit(s[k]) {
      assert s[k] == d[k - j];
    }
    StrToLRun(s, i, j, e);
  }

  /** `StrToLAt` with the digit run given by its bounds. */
  lemma StrToLRun(s: string, i: nat, j: nat, e: nat)
    requires i <= j < e <= |s|
    requires forall k :: 0 <= k < i ==> IsSpace(s[k])
    requires j == i || (j == i + 1 && (s[i] == '+' || s[i] == '-'))
    requires forall k :: j <= k < e ==> IsDigit(s[k])
    requires e < |s| ==> !IsDigit(s[e])
    ensures AllDigits(s[j..e])
    ensures StrToL(s) == Parsed(SignedValue(j > i && s[i] == '-', s[j..e]), e)
  {
    assert !IsSpace(s[i]);
    SkipSpacesAt(s, 0, i);
    DigitsEndAt(s, j, e);
  }

  /**
   * `strtol` on white space, an optional sign, a digit run and anything not starting with
   * a digit: it reads the signed value of the digits, saturated, and stops after them.
   * Leading zeros do not change the value.
   */
  lemma StrToLOfNumeral(ws: string, sign: string, d: string, tail: string)
    requires AllSpaces(ws) && IsSign(sign) && |d| > 0 && AllDigits(d)
    requires |tail| == 0 || !IsDigit(tail[0])
    ensures StrToL(ws + sign + d + tail) == Parsed(SignedValue(sign == "-", d), |ws| + |sign| + |d|)
  {
    NumeralLayout(ws, sign, d, tail);
    StrToLAt(ws + sign + d + tail, |ws|, |ws| + |sign|, d, sign == "-");
  }

  /** Where the parts of a numeral sit once concatenated, in the terms `StrToLAt` asks for. */
  lemma NumeralLayout(ws: string, sign: string, d: string, tail: string)
    requires AllSpaces(ws) && IsSign(sign) && |d| > 0 && AllDigits(d)
    requires |tail| == 0 || !IsDigit(tail[0])
    ensures var s, i, j, e := ws + sign + d + tail, |ws|, |ws| + |sign|, |ws| + |sign| + |d|;
            && e <= |s|
            && (forall k :: 0 <= k < i ==> IsSpace(s[k]))
            && (j == i || (j == i + 1 && (s[i] == '+' || s[i] == '-')))
            && ((j > i && s[i] == '-') <==> sign == "-")
            && j < |s| && IsDigit(s[j])
            && (forall k :: j <= k < e ==> IsDigit(s[k]))
            && (e < |s| ==> !IsDigit(s[e]))
            && s[j..e] == d
  {
    var t := d + tail;
    var u := sign + t;
    var s := ws + u;
    assert s == ws + sign + d + tail;
    var i := |ws|;
    var j := i + |sign|;
    var e := j + |d|;
    forall k | 0 <= k < i ensures IsSpace(s[k]) {
      assert s[k] == ws[k];
    }
    forall k | j <= k < e ensures IsDigit(s[k]) {
      assert s[k] == u[k - i] == t[k - j] == d[k - j];
    }
    assert j > i ==> s[i] == sign[0];
    assert e < |s| ==> s[e] == tail[0];
    assert s[j] == d[0];
    assert s[j..e] == d;
  }

  /**
   * Without a digit after the white space and the optional sign, `strtol` reads nothing:
   * the value is 0 and the end pointer is the start of the string.
   */
  lemma StrToLWithoutDigits(ws: string, sign: string, tail: string)
    requires AllSpaces(ws) && IsSign(sign)
    requires |tail| == 0 || !IsDigit(tail[0])
    requires sign == "" && |tail| > 0 ==> !IsSpace(tail[0]) && tail[0] != '+' && tail[0] != '-'
    ensures StrToL(ws + sign + tail) == Parsed(0, 0)
  {
    var s := ws + sign + tail;
    var i := |ws|;
    var j := i + |sign|;
    assert forall k :: 0 <= k < i ==> s[k] == ws[k];
    assert sign != "" ==> s[i] == sign[0];
    assert j < |s| ==> s[j] == tail[0];
    SkipSpacesAt(s, 0, i);
    DigitsEndAt(s, j, j);
  }

  /** A minus sign makes the value negative, so `-threads -5` is refused. */
  lemma StrToLNegative()
    ensures StrToL("-5") == Parsed(-5, 2) && !IsValidThreadsValue("-5")
  {
    assert DecimalValue("5") == 5;
    StrToLOfNumeral("", "-", "5", "");
    assert "" + "-" + "5" + "" == "-5";
  }

  /** A plus sign is read and skipped, so `-threads +4` gives four threads. */
  lemma StrToLPlusSign()
    ensures StrToL("+4") == Parsed(4, 2) && IsValidThreadsValue("+4")
  {
    assert DecimalValue("4") == 4;
    StrToLOfNumeral("", "+", "4", "");
    assert "" + "+" + "4" + "" == "+4";
  }

  /** Leading white space is skipped, so `-threads " 7"` gives seven threads. */
  lemma StrToLLeadingSpace()
    ensures StrToL(" 7") == Parsed(7, 2) && IsValidThreadsValue(" 7")
  {
    assert DecimalValue("7") == 7;
    StrToLOfNumeral(" ", "", "7", "");
    assert " " + "" + "7" + "" == " 7";
  }

  /** Leading zeros are read as part of the number, so `-threads 04` gives four threads. */
  lemma StrToLLeadingZero()
    ensures StrToL("04") == Parsed(4, 2) && IsValidThreadsValue("04")
  {
    assert DecimalValue("04") == 4 by {
      assert "04"[..1] == "0";
    }
    StrToLOfNumeral("", "", "04", "");
    assert "" + "" + "04" + "" == "04";
  }

  /** Zero is read completely but is not a positive count. */
  lemma StrToLZero()
    ensures StrToL("0") == Parsed(0, 1) && !IsValidThreadsValue("0")
  {
    assert DecimalValue("0") == 0;
    StrToLOfNumeral("", "", "0", "");
    assert "" + "" + "0" + "" == "0";
  }

  /** Trailing characters stop the number, so `-threads 4x` is refused. */
  lemma StrToLTrailing()
    ensures StrToL("4x") == Parsed(4, 1) && !IsValidThreadsValue("4x")
  {
    assert DecimalValue("4") == 4;
    StrToLOfNumeral("", "", "4", "x");
    assert "" + "" + "4" + "x" == "4x";
  }

  /** Without digits nothing is read, so `-threads x` and an empty value are refused. */
  lemma StrToLNoDigits()
    ensures StrToL("x") == Parsed(0, 0) && !IsValidThreadsValue("x")
    ensures StrToL("") == Parsed(0, 0) && !IsValidThreadsValue("")
  {
    StrToLWithoutDigits("", "", "x");
    assert "" + "" + "x" == "x";
    StrToLWithoutDigits("", "", "");
    assert "" + "" + "" == "";
  }

  /** The state of the argument loop once it stops: the thread count and path it assigned. */
  datatype Scan = Scan(threads: int, path: string, error: Option<ArgsError>)

  /**
   * The loop over `argv[i..]`: `-threads` consumes the next argument as the thread count,
   * any other argument replaces the path.
   */
  function ScanArguments(argv: seq<string>, i: nat, threads: int, path: string): (r: Scan)
    ensures r.error.None? ==> r.threads == threads || r.threads >= 1
    ensures r.error.None? ==>
              r.path == path || (r.path != ThreadsFlag && exists k :: i <= k < |argv| && argv[k] == r.path)
    ensures r.error.Some? ==> r.error.value == MissingThreadsValue || r.error.value == InvalidThreadsValue
    // a missing value only happens to a `-threads` in last position
    ensures r.error == Some(MissingThreadsValue) ==> i < |argv| && argv[|argv| - 1] == ThreadsFlag
    // an invalid value stops the scan and is still stored as the thread count
    ensures r.error == Some(InvalidThreadsValue) ==>
              exists k :: i <= k < |argv| - 1 && argv[k] == ThreadsFlag && !IsValidThreadsValue(argv[k + 1])
                          && r.threads == StrToL(argv[k + 1]).value
    // a changed thread count is the value `strtol` read after some `-threads`
    ensures r.error.None? && r.threads != threads ==>
              exists k :: i <= k < |argv| - 1 && argv[k] == ThreadsFlag && IsValidThreadsValue(argv[k + 1])
                          && r.threads == StrToL(argv[k + 1]).value
    decreases |argv| - i
  {
    if i >= |argv| then Scan(threads, path, None)
    else if argv[i] == ThreadsFlag then
      if i == |argv| - 1 then Scan(threads, path, Some(MissingThreadsValue))
      else
        var value := StrToL(argv[i + 1]).value;
        if !IsValidThreadsValue(argv[i + 1]) then Scan(value, path, Some(InvalidThreadsValue))
        else ScanArguments(argv, i + 2, value, path)
    else ScanArguments(argv, i + 1, threads, argv[i])
  }

  /** The members `checkTournamentArguments` leaves behind, and whether it succeeded. */
  datatype ArgsOutcome = ArgsOutcome(result: Result<string, ArgsError>, maxGamesThreads: int, inputDirPath: string)

  /**
   * `checkTournamentArguments`: rejects more than four arguments, scans them, resolves the
   * path to a full path and requires it to be an existing directory. `getFullPath` and
   * `isValidDir` are the file-system collaborators.
   */
  function CheckTournamentArguments(
    argv: seq<string>, threads: int, inputDirPath: string,
    getFullPath: string -> Option<string>, isValidDir: string -> bool): (r: ArgsOutcome)
    ensures |argv| > MAX_ARGC ==> r == ArgsOutcome(Err(TooManyArguments), threads, inputDirPath)
    ensures r.result.Ok? ==> r.result.value == r.inputDirPath && isValidDir(r.inputDirPath)
    ensures r.result.Ok? ==> r.maxGamesThreads == threads || r.maxGamesThreads >= 1
    ensures var scan := ScanArguments(argv, 1, threads, DefaultPath);
            |argv| <= MAX_ARGC ==>
              && r.maxGamesThreads == scan.threads
              && (scan.error.Some? ==> r == ArgsOutcome(Err(scan.error.value), scan.threads, inputDirPath))
              && (r.result.Ok? <==>
                    scan.error.None? && getFullPath(scan.path).Some? && isValidDir(getFullPath(scan.path).value))
              && (r.result.Ok? ==> r.inputDirPath == getFullPath(scan.path).value)
              && (r.result == Err(PathNotResolved) <==> scan.error.None? && getFullPath(scan.path).None?)
              && (r.result == Err(PathNotResolved) ==> r.inputDirPath == inputDirPath)
              && (r.result == Err(DirectoryNotFound) <==>
                    scan.error.None? && getFullPath(scan.path).Some? && !isValidDir(getFullPath(scan.path).value))
              && (r.result == Err(DirectoryNotFound) ==> r.inputDirPath == getFullPath(scan.path).value)
  {
    if |argv| > MAX_ARGC then ArgsOutcome(Err(TooManyArguments), threads, inputDirPath)
    else
      var scan := ScanArguments(argv, 1, threads, DefaultPath);
      if scan.error.Some? then ArgsOutcome(Err(scan.error.value), scan.threads, inputDirPath)
      else match getFullPath(scan.path)
        case None => ArgsOutcome(Err(PathNotResolved), scan.threads, inputDirPath)
        case Some(full) =>
          if !isValidDir(full) then ArgsOutcome(Err(DirectoryNotFound), scan.threads, full)
          else ArgsOutcome(Ok(full), scan.threads, full)
  }

  /** A `-threads` flag anywhere from `i` to the last argument ends the scan with an error. */
  lemma {:induction false} ScanWithFlagLast(argv: seq<string>, i: nat, threads: int, path: string)
    requires i < |argv| && argv[|argv| - 1] == ThreadsFlag
    ensures ScanArguments(argv, i, threads, path).error.Some?
    decreases |argv| - i
  {
    if argv[i] == ThreadsFlag {
      if i < |argv| - 1 {
        if IsValidThreadsValue(argv[i + 1]) && i + 1 < |argv| - 1 {
          ScanWithFlagLast(argv, i + 2, StrToL(argv[i + 1]).value, path);
        }
      }
    } else {
      ScanWithFlagLast(argv, i + 1, threads, argv[i]);
    }
  }

  /** `-threads` as the last argument is always rejected. */
  lemma ThreadsFlagLastRejected(
    argv: seq<string>, threads: int, inputDirPath: string,
    getFullPath: string -> Option<string>, isValidDir: string -> bool)
    requires |argv| >= 2 && argv[|argv| - 1] == ThreadsFlag
    ensures CheckTournamentArguments(argv, threads, inputDirPath, getFullPath, isValidDir).result.Err?
  {
    if |argv| <= MAX_ARGC {
      ScanWithFlagLast(argv, 1, threads, DefaultPath);
    }
  }

  /** Without a `-threads` flag the thread count is left alone and the last argument is the path. */
  lemma {:induction false} ScanWithoutFlag(argv: seq<string>, i: nat, threads: int, path: string)
    requires i <= |argv|
    requires forall k :: i <= k < |argv| ==> argv[k] != ThreadsFlag
    ensures ScanArguments(argv, i, threads, path)
            == Scan(threads, if i < |argv| then argv[|argv| - 1] else path, None)
    decreases |argv| - i
  {
    if i < |argv| {
      ScanWithoutFlag(argv, i + 1, threads, argv[i]);
    }
  }

  /**
   * Without `-threads`, the thread count keeps its default and the last argument wins as
   * the path ("." when there is none), before the path is resolved.
   */
  lemma DefaultsWithoutThreadsFlag(argv: seq<string>, threads: int)
    requires 1 <= |argv| <= MAX_ARGC
    requires forall k :: 1 <= k < |argv| ==> argv[k] != ThreadsFlag
    ensures ScanArguments(argv, 1, threads, DefaultPath)
            == Scan(threads, if |argv| > 1 then argv[|argv| - 1] else DefaultPath, None)
  {
    ScanWithoutFlag(argv, 1, threads, DefaultPath);
  }

  /**
   * A `-threads` flag followed by a valid value, in any position four arguments allow: the
   * thread count is the value `strtol` reads, and an argument before or after the pair
   * is the path.
   */
  lemma ThreadsFlagSetsCount(prog: string, before: seq<string>, v: string, after: seq<string>, threads: int)
    requires IsValidThreadsValue(v) && |before| + |after| <= 1
    requires forall k :: 0 <= k < |before| ==> before[k] != ThreadsFlag
    requires forall k :: 0 <= k < |after| ==> after[k] != ThreadsFlag
    ensures var argv := [prog] + before + [ThreadsFlag, v] + after;
            ScanArguments(argv, 1, threads, DefaultPath)
            == Scan(StrToL(v).value, if |after| == 1 then after[0] else if |before| == 1 then before[0] else DefaultPath, None)
  {
    var argv := [prog] + before + [ThreadsFlag, v] + after;
    var i := 1 + |before|;
    assert argv[i] == ThreadsFlag && argv[i + 1] == v;
    var p := if |before| == 1 then before[0] else DefaultPath;
    if |before| == 1 {
      assert argv[1] == before[0];
      assert ScanArguments(argv, 1, threads, DefaultPath) == ScanArguments(argv, 2, threads, p);
    }
    ScanWithoutFlag(argv, i + 2, StrToL(v).value, p);
  }

  /** With the numeral of a positive `n` after `-threads`, the thread count is `n`, saturated. */
  lemma ThreadsFlagSetsDecimalCount(prog: string, before: seq<string>, n: nat, after: seq<string>, threads: int)
    requires n >= 1 && |before| + |after| <= 1
    requires forall k :: 0 <= k < |before| ==> before[k] != ThreadsFlag
    requires forall k :: 0 <= k < |after| ==> after[k] != ThreadsFlag
    ensures ScanArguments([prog] + before + [ThreadsFlag, Decimal(n)] + after, 1, threads, DefaultPath).threads
            == Clamp(n)
  {
    StrToLOfDecimal(n);
    ThreadsFlagSetsCount(prog, before, Decimal(n), after, threads);
  }

  /**
   * A `-threads` value that is not a whole positive numeral is rejected wherever the flag
   * stands, and the value `strtol` read is still left in `maxGamesThreads`.
   */
  lemma InvalidThreadsValueRejected(prog: string, before: seq<string>, v: string, after: seq<string>,
    threads: int, inputDirPath: string, getFullPath: string -> Option<string>, isValidDir: string -> bool)
    requires !IsValidThreadsValue(v) && |before| + |after| <= 1
    requires forall k :: 0 <= k < |before| ==> before[k] != ThreadsFlag
    ensures CheckTournamentArguments([prog] + before + [ThreadsFlag, v] + after, threads, inputDirPath, getFullPath, isValidDir)
            == ArgsOutcome(Err(InvalidThreadsValue), StrToL(v).value, inputDirPath)
  {
    var argv := [prog] + before + [ThreadsFlag, v] + after;
    var i := 1 + |before|;
    assert argv[i] == ThreadsFlag && argv[i + 1] == v;
    if |before| == 1 {
      assert argv[1] == before[0];
      assert ScanArguments(argv, 1, threads, DefaultPath) == ScanArguments(argv, 2, threads, before[0]);
    }
  }
}

=== FILE: tournament_manager.dfy ===
/**
 * Construction of the tournament manager: check the command line, keep the boards that
 * pass validation, and load the player algorithms. Each stage runs only when the earlier
 * ones passed, and the manager is usable only when all three did.
 */
module TournamentManager {
  import opened Wrappers
  import opened TournamentArguments
  import opened BoardValidation
  import opened Sequences

  /** A tournament needs at least two algorithms. */
  const TOURNAMENT_MIN_PLAYERS: int := 2

  const BoardExtension: string := ".sboard"
  const DllExtension: string := ".dll"

  /**
   * The collaborators the manager relies on. `defaultThreadsNum` is the configured default
   * thread count. `sortedDirlist(dir, ext)` lists the files of `dir` with extension `ext` in
   * sorted order; `readBoard` parses a board file; `loadLibrary` and `hasGetAlgorithm` say
   * whether `LoadLibraryA` and the `GetAlgorithm` lookup succeed for the name given to the loader.
   */
  datatype Environment = Environment(
    defaultThreadsNum: int,
    getFullPath: string -> Option<string>,
    isValidDir: string -> bool,
    sortedDirlist: (string, string) -> seq<string>,
    readBoard: string -> Board,
    loadLibrary: string -> bool,
    hasGetAlgorithm: string -> bool,
    rules: ShipRules)

  function FilePath(dir: string, name: string): string {
    dir + "/" + name
  }

  /** Lexicographic order on strings, character by character. */
  predicate LexLeq(a: string, b: string)
    decreases |a|
  {
    |a| == 0 || (|b| > 0 && (a[0] < b[0] || (a[0] == b[0] && LexLeq(a[1..], b[1..]))))
  }

  predicate Sorted(names: seq<string>) {
    forall i, j :: 0 <= i < j < |names| ==> LexLeq(names[i], names[j])
  }

  predicate BoardFileAccepted(dir: string, name: string, env: Environment) {
    BoardAccepted(env.readBoard(FilePath(dir, name)), env.rules)
  }

  /** The step of the board filter: a listed file is kept, unchanged, when its board passes validation. */
  function KeepBoardFile(dir: string, env: Environment): string -> Option<string>
  {
    n => if BoardFileAccepted(dir, n, env) then Some(n) else None
  }

  /** The board files, in the listed order, whose board passes validation. */
  function AcceptedBoardFiles(dir: string, names: seq<string>, env: Environment): (r: seq<string>)
    ensures |r| <= |names|
    ensures forall k :: 0 <= k < |r| ==> r[k] in names && BoardFileAccepted(dir, r[k], env)
    ensures forall n :: n in names && BoardFileAccepted(dir, n, env) ==> n in r
  {
    var r := FilterMap(names, KeepBoardFile(dir, env));
    assert forall k :: 0 <= k < |r| ==> exists j :: 0 <= j < |names| && KeepBoardFile(dir, env)(names[j]) == Some(r[k]);
    r
  }

  /**
   * The accepted board files are the listing's accepted entries, each kept once, in the
   * listed order: `idx` gives the strictly increasing positions they were taken from.
   */
  lemma AcceptedBoardFilesInOrder(dir: string, names: seq<string>, env: Environment) returns (idx: seq<nat>)
    ensures var r := AcceptedBoardFiles(dir, names, env);
            && |idx| == |r|
            && (forall k :: 0 <= k < |idx| ==> idx[k] < |names| && r[k] == names[idx[k]]
                                                && BoardFileAccepted(dir, r[k], env))
            && (forall k, l :: 0 <= k < l < |idx| ==> idx[k] < idx[l])
            && (forall j :: 0 <= j < |names| && BoardFileAccepted(dir, names[j], env) ==> j in idx)
  {
    idx := FilterMapInOrder(names, KeepBoardFile(dir, env));
  }

  /** Extending a prefix of the listing by one file keeps that file exactly when it is accepted. */
  lemma AcceptedBoardFilesPrefix(dir: string, names: seq<string>, i: nat, env: Environment)
    requires i < |names|
    ensures AcceptedBoardFiles(dir, names[..i + 1], env)
            == AcceptedBoardFiles(dir, names[..i], env) + if BoardFileAccepted(dir, names[i], env) then [names[i]] else []
  {
    assert names[..i + 1][..i] == names[..i];
  }

  /** The accepted board files are the only selection of the listing in listed order. */
  lemma AcceptedBoardFilesUnique(dir: string, names: seq<string>, env: Environment, r: seq<string>, idx: seq<nat>)
    requires SelectsInOrder(names, KeepBoardFile(dir, env), r, idx)
    ensures r == AcceptedBoardFiles(dir, names, env)
  {
    var idx' := FilterMapInOrder(names, KeepBoardFile(dir, env));
    SelectsInOrderUnique(names, KeepBoardFile(dir, env), r, idx, AcceptedBoardFiles(dir, names, env), idx');
  }

  /** Keeping only the accepted board files preserves the sorted order of the listing. */
  lemma AcceptedBoardFilesSorted(dir: string, names: seq<string>, env: Environment)
    requires Sorted(names)
    ensures Sorted(AcceptedBoardFiles(dir, names, env))
  {
    var idx := AcceptedBoardFilesInOrder(dir, names, env);
    var r := AcceptedBoardFiles(dir, names, env);
    forall i, j | 0 <= i < j < |r| ensures LexLeq(r[i], r[j]) {
      assert r[i] == names[idx[i]] && r[j] == names[idx[j]] && idx[i] < idx[j];
    }
  }

  /** The boards read from the given files of `dir`. */
  function ReadBoards(dir: string, names: seq<string>, env: Environment): seq<Board>
  {
    seq(|names|, k requires 0 <= k < |names| => env.readBoard(FilePath(dir, names[k])))
  }

  /**
   * `checkTournamentBoards`: reads every `.sboard` file of the directory in sorted order,
   * keeps the boards that pass `checkBoardValidity`, and fails when none is kept.
   */
  method CheckTournamentBoards(dir: string, env: Environment) returns (ok: bool, boards: seq<Board>)
    ensures var accepted := AcceptedBoardFiles(dir, env.sortedDirlist(dir, BoardExtension), env);
            boards == ReadBoards(dir, accepted, env)
    ensures ok <==> |boards| > 0
  {
    var names := env.sortedDirlist(dir, BoardExtension);
    boards := [];
    ghost var kept: seq<string> := [];
    for i := 0 to |names|
      invariant kept == AcceptedBoardFiles(dir, names[..i], env)
      invariant boards == ReadBoards(dir, kept, env)
    {
      var board := env.readBoard(FilePath(dir, names[i]));
      var valid := CheckBoardValidity(board, env.rules);
      AcceptedBoardFilesPrefix(dir, names, i, env);
      if valid {
        boards := boards + [board];
        kept := kept + [names[i]];
      }
    }
    assert names[..|names|] == names;
    ok := |boards| > 0;
  }

  /** What the manager records of a loaded player algorithm. */
  datatype PlayerAlgoDetails = PlayerAlgoDetails(dllPath: string, playerName: string)

  predicate OccursAt(s: string, pattern: string, k: nat) {
    k + |pattern| <= |s| && s[k..k + |pattern|] == pattern
  }

  /** The first index at or after `from` where `pattern` occurs in `s`, as `std::string::find` reports it. */
  function Find(s: string, pattern: string, from: nat): (r: Option<nat>)
    ensures r.Some? ==> from <= r.value && OccursAt(s, pattern, r.value)
    ensures forall k :: from <= k && (r.None? || k < r.value) ==> !OccursAt(s, pattern, k)
    decreases |s| - from
  {
    if from + |pattern| > |s| then None
    else if s[from..from + |pattern|] == pattern then Some(from)
    else Find(s, pattern, from + 1)
  }

  /** The player name of a DLL file: its name up to the first ".dll", or all of it when there is none. */
  function PlayerName(fileName: string): (r: string)
    ensures |r| <= |fileName| && r == fileName[..|r|]
    ensures || (r == fileName && forall k: nat :: !OccursAt(fileName, DllExtension, k))
            || (OccursAt(fileName, DllExtension, |r|) && forall k: nat :: k < |r| ==> !OccursAt(fileName, DllExtension, k))
  {
    match Find(fileName, DllExtension, 0)
    case Some(k) => fileName[..k]
    case None => fileName
  }

  /** Stripping the extension recovers the base name of any file `base + ".dll"` whose base holds no ".dll". */
  lemma PlayerNameOfDllFile(base: string)
    requires forall k :: !OccursAt(base, DllExtension, k)
    ensures PlayerName(base + DllExtension) == base
  {
    var s := base + DllExtension;
    assert OccursAt(s, DllExtension, |base|);
    forall k: nat | k < |base| ensures !OccursAt(s, DllExtension, k) {
      if k + 4 <= |base| {
        assert s[k..k + 4] == base[k..k + 4];
        assert !OccursAt(base, DllExtension, k);
      } else {
        var d := |base| - k;
        assert s[k..k + 4][d] == s[|base|] == '.';
        assert DllExtension[d] != '.';
      }
    }
    var r := Find(s, DllExtension, 0);
    assert r == Some(|base|);
  }

  /**
   * `loadPlayerDll` as written: the library is loaded by its bare file name, not by the
   * full path it records; an algorithm is kept only when the load and the `GetAlgorithm`
   * lookup both succeed.
   */
  function LoadPlayerDll(dir: string, fileName: string, env: Environment): (r: Option<PlayerAlgoDetails>)
    ensures r.Some? <==> env.loadLibrary(fileName) && env.hasGetAlgorithm(fileName)
    ensures r.Some? ==> r.value.dllPath == FilePath(dir, fileName) && r.value.playerName == PlayerName(fileName)
  {
    var details := PlayerAlgoDetails(FilePath(dir, fileName), PlayerName(fileName));
    if !env.loadLibrary(fileName) then None
    else if !env.hasGetAlgorithm(fileName) then None
    else Some(details)
  }

  /** `loadPlayerDll` loading the library from the path it records. */
  function LoadPlayerDllFromPath(dir: string, fileName: string, env: Environment): (r: Option<PlayerAlgoDetails>)
    ensures r.Some? ==> r.value.dllPath == FilePath(dir, fileName)
                        && env.loadLibrary(r.value.dllPath) && env.hasGetAlgorithm(r.value.dllPath)
    ensures r.None? ==> !(env.loadLibrary(FilePath(dir, fileName)) && env.hasGetAlgorithm(FilePath(dir, fileName)))
  {
    var details := PlayerAlgoDetails(FilePath(dir, fileName), PlayerName(fileName));
    if !env.loadLibrary(details.dllPath) then None
    else if !env.hasGetAlgorithm(details.dllPath) then None
    else Some(details)
  }

  /**
   * A loader that finds libraries only by their path: the load as written fails for a
   * plugin in the input directory, the load from the recorded path succeeds.
   */
  lemma LoadByFileNameMissesDirectory(env: Environment)
    requires forall p :: env.loadLibrary(p) <==> p == "dir/a.dll"
    requires forall p :: env.hasGetAlgorithm(p)
    ensures LoadPlayerDll("dir", "a.dll", env).None?
    ensures LoadPlayerDllFromPath("dir", "a.dll", env).Some?
  {
  }

  /** The step of the loader: a listed DLL file yields the algorithm `loadPlayerDll` records, if any. */
  function LoadStep(dir: string, env: Environment): string -> Option<PlayerAlgoDetails>
  {
    n => LoadPlayerDll(dir, n, env)
  }

  /** The algorithms loaded from the listed DLL files, in the listed order. */
  function LoadedAlgos(dir: string, names: seq<string>, env: Environment): (r: seq<PlayerAlgoDetails>)
    ensures |r| <= |names|
    ensures forall k :: 0 <= k < |r| ==>
              exists j :: 0 <= j < |names| && LoadPlayerDll(dir, names[j], env) == Some(r[k])
    ensures forall j :: 0 <= j < |names| && LoadPlayerDll(dir, names[j], env).Some? ==>
              LoadPlayerDll(dir, names[j], env).value in r
  {
    FilterMap(names, LoadStep(dir, env))
  }

  /**
   * The loaded algorithms come one per loading file, in the listed order: `idx` gives the
   * strictly increasing positions of the files they were loaded from, and covers every
   * file that loads.
   */
  lemma LoadedAlgosInOrder(dir: string, names: seq<string>, env: Environment) returns (idx: seq<nat>)
    ensures var r := LoadedAlgos(dir, names, env);
            && |idx| == |r|
            && (forall k :: 0 <= k < |idx| ==> idx[k] < |names| && LoadPlayerDll(dir, names[idx[k]], env) == Some(r[k]))
            && (forall k, l :: 0 <= k < l < |idx| ==> idx[k] < idx[l])
            && (forall j :: 0 <= j < |names| && LoadPlayerDll(dir, names[j], env).Some? ==> j in idx)
  {
    idx := FilterMapInOrder(names, LoadStep(dir, env));
  }

  /** The value an option holds, as a sequence of length at most one. */
  function OptionToSeq<T>(o: Option<T>): seq<T>
  {
    match o
    case Some(v) => [v]
    case None => []
  }

  /** Extending a prefix of the listing by one file extends the loaded algorithms by the one it yields, if any. */
  lemma LoadedAlgosPrefix(dir: string, names: seq<string>, i: nat, env: Environment)
    requires i < |names|
    ensures LoadedAlgos(dir, names[..i + 1], env)
            == LoadedAlgos(dir, names[..i], env) + OptionToSeq(LoadPlayerDll(dir, names[i], env))
  {
    assert names[..i + 1][..i] == names[..i];
  }

  /** The algorithm list is the only one loaded in listed order, once per loading file. */
  lemma LoadedAlgosUnique(dir: string, names: seq<string>, env: Environment, r: seq<PlayerAlgoDetails>, idx: seq<nat>)
    requires SelectsInOrder(names, LoadStep(dir, env), r, idx)
    ensures r == LoadedAlgos(dir, names, env)
  {
    var idx' := FilterMapInOrder(names, LoadStep(dir, env));
    SelectsInOrderUnique(names, LoadStep(dir, env), r, idx, LoadedAlgos(dir, names, env), idx');
  }

  /**
   * `loadTournamentAlgos`: tries every `.dll` file of the directory in sorted order and
   * fails when fewer than `TOURNAMENT_MIN_PLAYERS` algorithms were loaded.
   */
  method LoadTournamentAlgos(dir: string, env: Environment) returns (ok: bool, algos: seq<PlayerAlgoDetails>)
    ensures algos == LoadedAlgos(dir, env.sortedDirlist(dir, DllExtension), env)
    ensures ok <==> |algos| >= TOURNAMENT_MIN_PLAYERS
  {
    var names := env.sortedDirlist(dir, DllExtension);
    algos := [];
    for i := 0 to |names|
      invariant algos == LoadedAlgos(dir, names[..i], env)
    {
      LoadedAlgosPrefix(dir, names, i, env);
      var loaded := LoadPlayerDll(dir, names[i], env);
      algos := algos + OptionToSeq(loaded);
    }
    assert names[..|names|] == names;
    ok := |algos| >= TOURNAMENT_MIN_PLAYERS;
  }

  /** The state of a constructed tournament manager. */
  datatype Manager = Manager(
    maxGamesThreads: int,
    inputDirPath: string,
    boards: seq<Board>,
    algos: seq<PlayerAlgoDetails>,
    successfullyCreated: bool)

  /**
   * The constructor: the arguments are checked first, then the boards, then the algorithms;
   * a failing stage stops the ones after it, and the manager is created exactly when all
   * three pass.
   */
  method CreateManager(argv: seq<string>, env: Environment) returns (m: Manager)
    ensures var args := CheckTournamentArguments(argv, env.defaultThreadsNum, "", env.getFullPath, env.isValidDir);
            && m.maxGamesThreads == args.maxGamesThreads
            && m.inputDirPath == args.inputDirPath
            && (args.result.Err? ==> !m.successfullyCreated && m.boards == [] && m.algos == [])
            && (args.result.Ok? ==>
                  var dir := args.inputDirPath;
                  var boards := AcceptedBoardFiles(dir, env.sortedDirlist(dir, BoardExtension), env);
                  var algos := LoadedAlgos(dir, env.sortedDirlist(dir, DllExtension), env);
                  && m.boards == ReadBoards(dir, boards, env)
                  && (|boards| == 0 ==> !m.successfullyCreated && m.algos == [])
                  && (|boards| > 0 ==> m.algos == algos)
                  && (m.successfullyCreated <==> |boards| > 0 && |algos| >= TOURNAMENT_MIN_PLAYERS))
  {
    var args := CheckTournamentArguments(argv, env.defaultThreadsNum, "", env.getFullPath, env.isValidDir);
    m := Manager(args.maxGamesThreads, args.inputDirPath, [], [], false);
    if args.result.Err? {
      return;
    }
    var boardsOk, boards := CheckTournamentBoards(m.inputDirPath, env);
    m := m.(boards := boards);
    if !boardsOk {
      return;
    }
    var algosOk, algos := LoadTournamentAlgos(m.inputDirPath, env);
    m := m.(algos := algos);
    if !algosOk {
      return;
    }
    m := m.(successfullyCreated := true);
  }
}

=== FILE: wrappers.dfy ===
/** Failure-compatible result types shared by the tournament and referee modules. */
module Wrappers {

  /** A value that may be absent: the model's stand-in for a null pointer or a missing entry. */
  datatype Option<+T> = None | Some(value: T)

  /** Either a successful value or an error describing why the step failed. */
  datatype Result<+R, +E> = Ok(value: R) | Err(error: E)
}
